=== FILE: README.md ===
# Workspace-dependency rewriting of the semantic-release bumper plugin

This Dafny project models the core of the `semantic-release-bumper-plugin`: the
logic that, in a pnpm monorepo, replaces `workspace:*` dependency declarations
in a package's `package.json` with concrete versions before publishing, and puts
the placeholders back afterwards. The code exists in two versions, and both are
modelled:

- the helper module `src/utils.js`;
- the older self-contained plugin `src/index.js`.

The core has five parts:

1. **Workspace-root locator** (`Locate`). Both versions walk from the working
   directory towards `/`, stopping at the first directory that holds
   `pnpm-workspace.yaml`. Both refuse to test `/` itself. Only the helper throws
   `EWORKSPACE` here; the older plugin's plain `Error` becomes `EVERIFY` in
   `verifyConditions`.
2. **Package scanners.**
   - `BfsScan` is the helper's breadth-first scan. It collects every
     `package.json` reachable without entering `node_modules` or a dot
     directory, and fails the whole scan (`ESCANWS`) on one file that does not parse.
   - `TreeScan` is the older plugin's recursive scan of `<root>/packages`. It
     keeps named manifests in a name-keyed `Map` where the last one wins, and
     skips ones that do not parse.
3. **Dependency resolver** (`Resolver`). It selects the `dependencies` entries,
   then the `devDependencies` entries when `replaceDevDeps` is set, whose value
   is exactly `workspace:*` and whose name the scan knows.
4. **Manifest rewriters** (`Rewrite`, `RewriteLaws`). There are three:
   - the forward rewrite to `^version`;
   - the same loop with the bare release version, as used in `prepare`;
   - the revert of `@geniux/`-scoped, digit-leading values to `workspace:*`.
5. **Plugin lifecycle** (`Plugin`):
   - configuration merge;
   - the `analysisState` record;
   - `verifyConditions` and `prepare`;
   - the resets in `success` and `fail`.

Supporting modules:

| Module | Models |
|---|---|
| `Results` | The errors the code throws, as a result type |
| `Manifests` | A manifest: each dependency section is an ordered list of (name, value) pairs in `Object.entries` order |
| `Paths` | POSIX paths as lists of segments |
| `FileTree` | The filesystem as an immutable directory tree. Each file carries what `JSON.parse` makes of it: `null`, another non-object value, an object, or a parse failure. A tree is well formed when no directory lists a name twice, as on disk |
| `LastWins` | A JavaScript `Map` built by successive `set` calls |

The main results are:

- **Locator:** the root is the nearest ancestor-or-self holding the marker, or an error exactly when there is none.
- **Helper scanner:** its breadth-first loop returns a permutation of the manifests of a depth-first reference walk: each one as often as the walk meets it. It fails iff one of them does not parse. In a well-formed tree no path is returned twice.
- **Older scanner:** it equals a last-wins fold over a depth-first reference walk, because the path-prefix string guard always holds below `<root>/packages`.
- **Resolver:** it picks an entry iff it is a placeholder of an examined section naming a scanned package. Entries keep manifest order, and `dependencies` come first.
- **Helper's version map:** it resolves each name to the last scanned manifest with that name.
- **Forward rewrite:** exactly the listed, truthy entries change, and the flag reports whether there was one.
- **Revert:** exactly the scoped, digit-leading entries change. It is idempotent.
- **Forward, then revert:** this does not restore the placeholder when the forward value is `^version`. With a bare digit-leading version it does restore every scoped placeholder.
- **`prepare`:** writes only when a release is planned, analysis has run, the run is not dry, records exist and one of them targets a present, truthy entry. After `success` or `fail` it writes nothing.

Details of the code the model keeps:

- **Placeholders are matched exactly.** Only the string `workspace:*` is
  selected (`src/utils.js:134`, `src/index.js:97` and `:121`). Values such as
  `workspace:^` are left alone.
- **The helper's scan keeps every file that parses.** `findWorkspacePackages`
  pushes each `package.json` that parses (`src/utils.js:83-86`). It does so
  with or without a name or version, and also when the file holds `null` or
  another value that is not an object. The version map is keyed by whatever
  `name` is there (`src/utils.js:119-121`). Reading `name` from a scanned
  `null` throws a `TypeError`.
- **Unparsable manifests.** One unparsable `package.json` fails the helper's
  whole scan with `ESCANWS` (`src/utils.js:84`, `:92-97`). The older scanner
  logs it and skips it (`src/index.js:60-62`).
- **Only digit-leading values are reverted.** The doc comment of
  `revertToWorkspaceVersions` says it reverts all `@geniux` dependencies
  (`src/utils.js:174`). Line 188 reverts only values that start with a digit,
  so `^2.3.1` stays as it is (`RewriteLaws.ForwardThenRevertNotIdentity`).
- **What the forward rewrite writes and reports.**
  - `updateToVersionRanges` writes `^version` (`src/utils.js:162`), but
    `prepare` writes the bare version (`src/index.js:240`).
  - The doc comment at `src/utils.js:154` calls the result "whether any
    changes were made". Both loops report a change for every listed entry
    that is present and non-empty, even one that already holds the target
    value (`src/utils.js:161-163`, `src/index.js:239-241`).
- **Unmatched placeholders.** A placeholder whose package the scan did not
  find produces no record. The helper skips it silently (`src/utils.js:134`),
  and the older plugin only logs it (`src/index.js:108-110`).

## Model

| member | source | states |
|---|---|---|
| Paths.Dirname | packages/semantic-release-bumper-plugin/src/utils.js:50 | `path.dirname` drops exactly the last segment; the root stays the root |
| Paths.RenderPrefix | packages/semantic-release-bumper-plugin/src/index.js:65 | a path below another has the other's rendering as a string prefix, so the `startsWith` guard holds for every descendant of `<root>/packages` |
| Locate.FindWorkspaceRoot | packages/semantic-release-bumper-plugin/src/utils.js:44-57 | an Ok root is a non-empty prefix of the start holding `pnpm-workspace.yaml` with no longer prefix holding it; the walk fails with `EWORKSPACE` exactly when no non-empty prefix holds it (`/` is never tested) |
| FileTree.ReadJson | packages/semantic-release-bumper-plugin/src/utils.js:10-20 | a read yields a value exactly when the path is a file that parses, and then it is that file's parse result, `null` and other non-objects included; a missing file, a directory or unparsable text yields nothing |
| FileTree.WritePackageJson | packages/semantic-release-bumper-plugin/src/utils.js:27-37 | the write fails with `EWRITEPKG` iff `writeFileSync` throws, and otherwise writes the given manifest to the given path |
| FileTree.ObjectView | packages/semantic-release-bumper-plugin/src/utils.js:130-131 | reading a field of a parse result finds an object's own fields; a number, string, boolean or array has no `name`, `version` or dependency section |
| BfsScan.Subdirs | packages/semantic-release-bumper-plugin/src/utils.js:77-82 | a visit is queued iff it is an entry that is a directory and neither `node_modules` nor dot-prefixed, and it is queued with its own path and listing; the queued listings are smaller than the parent's |
| BfsScan.ManifestFiles | packages/semantic-release-bumper-plugin/src/utils.js:83-86 | every `package.json` file entry of the listing is read, at the path `<dir>/package.json`, and nothing else is |
| BfsScan.ReadAll | packages/semantic-release-bumper-plugin/src/utils.js:83-86 | reading the listing's package.json files fails with `ESCANWS` iff one does not parse, otherwise yields them all, in order, with their paths and parse results |
| BfsScan.Bfs | packages/semantic-release-bumper-plugin/src/utils.js:70-88 | the loop only ever fails with `ESCANWS`, and on success keeps the packages already found as a prefix; `BfsFails` and `BfsCollects` state what it adds |
| BfsScan.Reach | packages/semantic-release-bumper-plugin/src/utils.js:74-86 | every listed file has a package.json path strictly below the start, reached only through directories the scan enters; every file of the tree at such a path is listed with its own parse result |
| BfsScan.ReachSound | packages/semantic-release-bumper-plugin/src/utils.js:74-86 | in a well-formed tree, each file the reference walk lists is the file at its path, with that file's parse result |
| BfsScan.BfsFails | packages/semantic-release-bumper-plugin/src/utils.js:70-97 | the breadth-first loop fails, with `ESCANWS`, iff some package.json reachable from the queue does not parse; one holding `null` or another non-object does not fail it |
| BfsScan.BfsCollects | packages/semantic-release-bumper-plugin/src/utils.js:67-91 | when the loop succeeds its result holds exactly the packages already found plus the parsed manifests reachable from the queue |
| BfsScan.FindWorkspacePackages | packages/semantic-release-bumper-plugin/src/utils.js:65-98 | a root that is not a directory fails; otherwise the scan fails iff a reachable package.json does not parse, and returns a permutation of the reachable files' parse results (objects or not) with their paths: the same count, each file as often as the reference walk meets it |
| BfsScan.ScanReadsByPath | packages/semantic-release-bumper-plugin/src/utils.js:65-98 | in a well-formed tree, reading each `fullPath` as the loop does: from a directory root the scan fails iff some visible package.json file does not parse, and otherwise returns the visible package.json paths with what the file at each path parses to, each path exactly once |
| BfsScan.BfsPermutes | packages/semantic-release-bumper-plugin/src/utils.js:67-91 | when the loop succeeds, its result read back as files is a permutation of the packages already found followed by the reference walk of the queue, so its length is their sum |
| BfsScan.ReachDistinct | packages/semantic-release-bumper-plugin/src/utils.js:74-86 | in a well-formed tree the reference walk meets no path twice |
| BfsScan.ResultPathsDistinct | packages/semantic-release-bumper-plugin/src/utils.js:65-98 | in a well-formed tree two positions of a successful scan hold different paths |
| TreeScan.VersionOrUnknown | packages/semantic-release-bumper-plugin/src/index.js:56 | the recorded version is the manifest's when it is a non-empty string, and `'unknown'` when it is missing or empty |
| TreeScan.ManifestIn | packages/semantic-release-bumper-plugin/src/index.js:48-62 | a subdirectory contributes a pair iff its own package.json parses to an object with a truthy name, and the pair is that name with the version (or `'unknown'`) and the package.json path; `null`, other non-objects and unparsable files contribute nothing |
| TreeScan.Candidates | packages/semantic-release-bumper-plugin/src/index.js:38-67 | every pair of the depth-first reference walk has a visible package.json path at least one subdirectory below the scanned directory, and every named object package.json at such a path of the tree is recorded with its pair |
| TreeScan.CandidatesSound | packages/semantic-release-bumper-plugin/src/index.js:38-67 | in a well-formed tree, each reference pair is the name and version (or `'unknown'`) of the named object package.json at its own path |
| TreeScan.ScanDirectory | packages/semantic-release-bumper-plugin/src/index.js:35-70 | the shared map only grows, and each key it sets holds a non-empty name with a non-empty version and a visible package.json below the directory |
| TreeScan.ScanItem | packages/semantic-release-bumper-plugin/src/index.js:38-68 | one item only adds to the map: each key it sets or changes is a non-empty name with a non-empty version and a `package.json` path visible below the directory. `TreeScan.ScanRecordsByPath` ties each key to the content of the file at that path |
| TreeScan.ScanIsFold | packages/semantic-release-bumper-plugin/src/index.js:35-70 | below `<root>/packages` the recursive scan equals setting the reference pairs, in depth-first order, into the shared map |
| TreeScan.ScanItemIsFold | packages/semantic-release-bumper-plugin/src/index.js:44-67 | one item adds its own manifest then everything below it; skipped names and plain files add nothing |
| TreeScan.FindWorkspacePackages | packages/semantic-release-bumper-plugin/src/index.js:72-81 | no packages directory gives an empty map; a packages path that is a file fails; otherwise a name is present iff some reference pair has it, with the info of the last such pair |
| TreeScan.ScanRecordsByPath | packages/semantic-release-bumper-plugin/src/index.js:35-81 | in a well-formed tree with a packages directory, each recorded name maps to the path of a package.json at least one subdirectory below `packages` that parses to an object carrying that name, with its version or `'unknown'`; and every such named package.json has its name recorded |
| LastWins.LastIndex | packages/semantic-release-bumper-plugin/src/index.js:55 | the position found holds the key and no later pair does |
| LastWins.Fold | packages/semantic-release-bumper-plugin/src/index.js:55-58 | after the `set` calls a key is present iff it was before or some pair has it, and holds the value of its last pair |
| LastWins.FoldAppend | packages/semantic-release-bumper-plugin/src/index.js:55-58 | setting the pairs of two lists in turn is setting their concatenation |
| Resolver.SelectSection | packages/semantic-release-bumper-plugin/src/utils.js:129-143 | one section yields a record for a name iff the section declares it exactly as `workspace:*` and the scan knows it, with the known value, in manifest order |
| Resolver.Resolve | packages/semantic-release-bumper-plugin/src/utils.js:123-143 | only `dependencies`, and `devDependencies` when `replaceDevDeps` is set, are examined (never `peerDependencies`); every `dependencies` record precedes every `devDependencies` record |
| Resolver.KnownVersions | packages/semantic-release-bumper-plugin/src/utils.js:119-121 | the version map knows a name iff some scanned manifest has it, and maps it to the version of the last such manifest |
| Resolver.FindWorkspaceDependencies | packages/semantic-release-bumper-plugin/src/utils.js:109-146 | an unreadable target fails with `EREADPKG`; a `null` target or a scanned `null` fails with a `TypeError`; otherwise a record exists iff the entry is a placeholder of an examined section naming a scanned package, and its actual version is that of the last scanned manifest with the name; a non-object target yields no record |
| Resolver.FindWorkspaceDependenciesInPlugin | packages/semantic-release-bumper-plugin/src/index.js:84-150 | an unreadable or `null` target fails with `EANALYSIS`; otherwise records exist for exactly the placeholders of examined sections whose name is in the scanned map, each carrying that package's info; a non-object target yields no record |
| Manifests.Lookup | packages/semantic-release-bumper-plugin/src/utils.js:161 | reading `section[name]` is undefined iff no entry has the name, and otherwise gives that entry's value |
| Manifests.SetValue | packages/semantic-release-bumper-plugin/src/utils.js:162 | assigning an existing key changes only that entry's value; order, names and other values stay |
| Rewrite.Step | packages/semantic-release-bumper-plugin/src/utils.js:160-164 | one iteration never adds or removes fields, sections or entries |
| Rewrite.StepEffect | packages/semantic-release-bumper-plugin/src/utils.js:160-164 | one iteration sets exactly the designated entry when it is present and non-empty, and reports a change exactly then |
| Rewrite.SetListed | packages/semantic-release-bumper-plugin/src/utils.js:159-168 | the loop over the records keeps the manifest's shape |
| Rewrite.SetListedValues | packages/semantic-release-bumper-plugin/src/utils.js:159-168 | after the loop an entry holds the new value iff some record designates it and it was non-empty; every other entry is unchanged |
| Rewrite.SetListedFlag | packages/semantic-release-bumper-plugin/src/utils.js:157-170 | the loop reports a change iff some entry is designated and non-empty |
| Rewrite.UpdateToVersionRanges | packages/semantic-release-bumper-plugin/src/utils.js:156-171 | targeted entries become `^version`, all else is unchanged, and the result is true iff some entry was targeted |
| Rewrite.RevertEntries | packages/semantic-release-bumper-plugin/src/utils.js:187-193 | the inner loop keeps the section's length and names; `RevertEntriesValues` and `RevertEntriesFlag` state its values and flag |
| Rewrite.RevertEntriesValues | packages/semantic-release-bumper-plugin/src/utils.js:187-193 | iterating the snapshot of a section's entries resets exactly the scoped, digit-leading ones |
| Rewrite.RevertEntriesFlag | packages/semantic-release-bumper-plugin/src/utils.js:187-193 | the section loop reports a change iff some snapshot entry is scoped and digit-leading |
| Rewrite.RevertSection | packages/semantic-release-bumper-plugin/src/utils.js:184-193 | a section keeps its names and order; scoped digit-leading values become `workspace:*`, others stay; the flag is true iff one did |
| Rewrite.RevertOne | packages/semantic-release-bumper-plugin/src/utils.js:183-194 | reverting one section type resets exactly its scoped digit-leading entries, touches no other section, and reports a change iff it had such an entry |
| Rewrite.RevertIn | packages/semantic-release-bumper-plugin/src/utils.js:183-194 | the outer loop keeps the manifest's shape; `RevertInValues` and `RevertInFlag` state its values and flag |
| Rewrite.RevertInValues | packages/semantic-release-bumper-plugin/src/utils.js:183-194 | over a list of distinct section types, exactly the scoped digit-leading entries of listed sections are reset |
| Rewrite.RevertInFlag | packages/semantic-release-bumper-plugin/src/utils.js:183-196 | over distinct section types, the flag is true iff some listed section has a scoped digit-leading entry |
| Rewrite.EverySectionReverted | packages/semantic-release-bumper-plugin/src/utils.js:181 | the three reverted section names cover every dependency section the manifest model has |
| Rewrite.RevertToWorkspaceVersions | packages/semantic-release-bumper-plugin/src/utils.js:179-197 | exactly the `@geniux/` entries whose value starts with a digit become `workspace:*`, all else is unchanged, and the result is true iff one existed |
| RewriteLaws.PlaceholderNotRevertible | packages/semantic-release-bumper-plugin/src/utils.js:188-189 | `workspace:*` does not start with a digit, so a placeholder is never reverted |
| RewriteLaws.RevertIdempotent | packages/semantic-release-bumper-plugin/src/utils.js:179-197 | a second revert returns the manifest unchanged and reports no change |
| RewriteLaws.ForwardIdempotent | packages/semantic-release-bumper-plugin/src/utils.js:159-168 | running the forward loop twice with the same value gives what running it once gives |
| RewriteLaws.ForwardThenRevertKeepsRange | packages/semantic-release-bumper-plugin/src/utils.js:162 | a `^version` written by the forward rewrite survives the revert, so the placeholder is not restored |
| RewriteLaws.ForwardThenRevertNotIdentity | packages/semantic-release-bumper-plugin/src/utils.js:188 | a concrete manifest whose `workspace:*` dependency is not restored by forward-then-revert |
| RewriteLaws.BareForwardThenRevertRestores | packages/semantic-release-bumper-plugin/src/index.js:237-244 | with a digit-leading bare version, reverting what `prepare` wrote restores a placeholder-form manifest whose targeted entries are all scoped |
| Plugin.MergeConfig | packages/semantic-release-bumper-plugin/src/index.js:158 | without a supplied `replaceDevDeps` the config is the default (false); a supplied value wins |
| Plugin.VerifyConditions | packages/semantic-release-bumper-plugin/src/index.js:153-201 | config and target path are always stored; the step succeeds iff a marker-holding ancestor exists, the packages path below it is not a file, and the target parses to a value other than `null`; any failure is `EVERIFY` and keeps the earlier records and manifest; on success the stored root is the nearest marker-holding ancestor, the stored manifest is the target's parse result and the records are exactly the resolver's picks |
| Plugin.Stored | packages/semantic-release-bumper-plugin/src/index.js:234 | the copy `prepare` edits holds the stored object's own fields; a stored `null`, non-object or missing manifest gives a copy with no dependency section |
| Plugin.Prepare | packages/semantic-release-bumper-plugin/src/index.js:223-258 | no write without a release, without analysis, in a dry run or with no records. Otherwise, when no record targets a present truthy entry nothing is written; when one does, the step fails with `EUPDATE` iff the write fails or there is no stored path, and else writes to the stored path with exactly the targeted entries set to the bare version |
| Plugin.Success | packages/semantic-release-bumper-plugin/src/index.js:273-279 | every slot is cleared and the config is back to the default |
| Plugin.Fail | packages/semantic-release-bumper-plugin/src/index.js:288-294 | every slot is cleared and the config is back to the default |
| Plugin.ResetDisablesPrepare | packages/semantic-release-bumper-plugin/src/index.js:226-229 | after `success` or `fail`, `prepare` writes nothing whatever the release, dry-run flag or write outcome |
| Plugin.ResolvedTargets | packages/semantic-release-bumper-plugin/src/index.js:237-244 | the entries the rewrite sets are exactly the `workspace:*` entries of examined sections whose name was scanned |
| Plugin.VerifyThenPrepare | packages/semantic-release-bumper-plugin/src/index.js:164-249 | after a successful analysis, a non-dry `prepare` writes iff the target declares a scanned package as `workspace:*` in an examined section, setting exactly those entries to the release version |

## Left out

- Filesystem calls (`readdirSync`, `statSync`, `existsSync`, `readFileSync`, `writeFileSync`) are replaced by an immutable directory tree. A write appears as a returned `Write` record, and its success is a boolean parameter.
- `JSON.parse` and `JSON.stringify` are foreign calls. Each file carries its parse result: a parse failure, `null`, another non-object value, or an object with the manifest fields. The pretty-printed bytes of the written file are not modelled.
- Plugin.Stored: `{ ...v }` of an array or a string also copies its indices as keys. The model copies nothing from a non-object. No dependency section is among those keys, so the rewrite and the decision to write are the same; only the bytes of a file that is never written would differ.
- Non-string `name`, `version` and dependency values, and non-object sections, are not modelled. A manifest field is either a string or absent.
- Logger output and the message texts of `SemanticReleaseError` are left out. Only the error code is kept.
- Windows paths are not modelled, because only POSIX segment lists are. A relative start directory, which `path.dirname` never turns into `/` and on which the JavaScript loop would not stop, is also outside the model.
- Symbolic links and `statSync` failures in the older scanner, and permission errors of `readdirSync`, are left out. The tree has no links or unreadable directories.
- `process.cwd()` and the orchestrator's context (`nextRelease`, `options.dryRun`) are passed in as parameters.
- The shallow copy in `prepare` (`src/index.js:234`) shares its section objects with `analysisState.packageJson`, so the JavaScript also mutates the stored manifest. The model treats the rewrite as a functional update and leaves the stored manifest as it was.
- `analyzeCommits`, `generateNotes` and `publish` only log and return `null`, so they are not modelled.
- The `revertOnly` option and any git add, commit or push step are left out. Neither is read or performed by the modelled code.
- The Google Drive picker packages, their React bindings and `update-core-version.js` are left out. They are glue over browser globals, React state and a network call.
- The release configurations, `next.config.ts` and the sandbox pages are left out. They are static configuration and UI.
- Locate.FindWorkspaceRoot cites only the helper's loop. The older plugin's loop (`src/index.js:19-30`) has the same exits, and `Plugin.VerifyConditions` states its result.
- BfsScan.FindWorkspacePackages: states which manifests the scan returns and how often, not their breadth-first order. `Resolver.KnownVersions` is stated over whatever order the scan supplies.
- Well-formed trees: a `Dir` of the model may list a name twice, which no directory on disk does. `BfsScan.ReachSound`, `BfsScan.ReachDistinct`, `BfsScan.ResultPathsDistinct`, `BfsScan.ScanReadsByPath`, `TreeScan.CandidatesSound` and `TreeScan.ScanRecordsByPath` are stated for trees where every directory lists each name once. On other trees the scans follow the listing, not a read by path.
- FileTree.WritePackageJson: no code in `src/utils.js` or `src/index.js` calls it, and `prepare` writes with its own `writeFileSync` and `EUPDATE`. The bytes written are not modelled.
- Manifests.Lookup: a JavaScript property read `section[name]` also finds names inherited from `Object.prototype`, such as `toString` or `constructor`. The model sees only the section's own entries, so `updateToVersionRanges` called with a record naming such a key would assign to it in JavaScript and not in the model. The resolver builds every record from an own entry of the target, so the plugin's own flow never meets such a record.

=== FILE: bfs_scan.dfy ===
/** The breadth-first package scanner of the helper module: every
    package.json under the workspace root, outside dependency caches and
    dot-directories; one package.json that does not parse fails the whole scan. */
module BfsScan {
  import opened Results
  import opened Paths
  import opened FileTree

  /** One manifest the scan collected: where it is and what it parsed to
      (not necessarily an object). */
  datatype ScannedPackage = ScannedPackage(path: Path, pkg: Json)

  /** A queued directory: its path and its listing. */
  datatype Visit = Visit(dir: Path, entries: seq<Entry>)

  /** A package.json file met by a traversal, with its parse result. */
  datatype Found = Found(path: Path, json: Option<Json>)

  /** The entry is a directory the scan descends into. */
  predicate Enterable(e: Entry) {
    e.node.Dir? && !Skipped(e.name)
  }

  /** The entry is a package.json file the scan reads. (A directory named
      package.json is Enterable, so it is never read.) */
  predicate IsManifestFile(e: Entry) {
    e.node.File? && e.name == ManifestName
  }

  /** Termination measure of the queue. */
  function QueueSize(q: seq<Visit>): nat {
    if q == [] then 0 else NodeSize(Dir(q[0].entries)) + QueueSize(q[1..])
  }

  lemma {:induction false} QueueSizeAppend(a: seq<Visit>, b: seq<Visit>)
    ensures QueueSize(a + b) == QueueSize(a) + QueueSize(b)
  {
    if a != [] {
      assert (a + b)[0] == a[0] && (a + b)[1..] == a[1..] + b;
      QueueSizeAppend(a[1..], b);
    } else {
      assert a + b == b;
    }
  }

  /** The queued visit of an enterable entry: its path and its own listing. */
  function VisitOf(dir: Path, e: Entry): Visit
    requires e.node.Dir?
  {
    Visit(dir + [e.name], e.node.entries)
  }

  /** The subdirectories of a listing that get queued, in listing order. */
  function Subdirs(dir: Path, es: seq<Entry>): (r: seq<Visit>)
    ensures QueueSize(r) <= EntriesSize(es)
    ensures forall i :: 0 <= i < |r| ==> |r[i].dir| == |dir| + 1 && r[i].dir[..|dir|] == dir && !Skipped(r[i].dir[|dir|])
    ensures forall i :: 0 <= i < |es| && Enterable(es[i]) ==> VisitOf(dir, es[i]) in r
    ensures forall v :: v in r ==> exists i :: 0 <= i < |es| && Enterable(es[i]) && v == VisitOf(dir, es[i])
  {
    if es == [] then []
    else
      var e := es[0];
      var here := if Enterable(e) then [VisitOf(dir, e)] else [];
      var rest := Subdirs(dir, es[1..]);
      QueueSizeAppend(here, rest);
      forall i | 0 < i < |es| && Enterable(es[i])
        ensures VisitOf(dir, es[i]) in rest
      {
        assert es[i] == es[1..][i - 1];
      }
      forall v | v in rest
        ensures exists i :: 0 <= i < |es| && Enterable(es[i]) && v == VisitOf(dir, es[i])
      {
        var j :| 0 <= j < |es[1..]| && Enterable(es[1..][j]) && v == VisitOf(dir, es[1..][j]);
        assert es[j + 1] == es[1..][j];
      }
      here + rest
  }

  /** The package.json files of a listing, in listing order. */
  function ManifestFiles(dir: Path, es: seq<Entry>): (r: seq<Found>)
    ensures forall i :: 0 <= i < |r| ==> r[i].path == dir + [ManifestName]
    ensures forall i :: 0 <= i < |es| && IsManifestFile(es[i]) ==> Found(dir + [ManifestName], es[i].node.json) in r
    ensures forall f :: f in r ==> exists i :: 0 <= i < |es| && IsManifestFile(es[i]) && f.json == es[i].node.json
  {
    if es == [] then []
    else
      var rest := ManifestFiles(dir, es[1..]);
      forall i | 0 < i < |es| && IsManifestFile(es[i])
        ensures Found(dir + [ManifestName], es[i].node.json) in rest
      {
        assert es[i] == es[1..][i - 1];
      }
      forall f | f in rest
        ensures exists i :: 0 <= i < |es| && IsManifestFile(es[i]) && f.json == es[i].node.json
      {
        var j :| 0 <= j < |es[1..]| && IsManifestFile(es[1..][j]) && f.json == es[1..][j].node.json;
        assert es[j + 1] == es[1..][j];
      }
      (if IsManifestFile(es[0]) then [Found(dir + [es[0].name], es[0].node.json)] else []) + rest
  }

  /** Some file of the list failed to parse. */
  predicate Unparsable(fs: seq<Found>) {
    exists f :: f in fs && f.json.None?
  }

  /** `readPackageJson` on each file in order; the first failure is thrown,
      and the scan's catch turns it into ESCANWS. */
  function ReadAll(fs: seq<Found>): (r: Result<seq<ScannedPackage>>)
    ensures r.Err? <==> Unparsable(fs)
    ensures r.Err? ==> r.error == ScanWorkspace
    ensures r.Ok? ==> |r.value| == |fs|
    ensures r.Ok? ==> forall i :: 0 <= i < |fs| ==> fs[i] == Found(r.value[i].path, Some(r.value[i].pkg))
  {
    if fs == [] then Ok([])
    else match fs[0].json
      case None => Err(ScanWorkspace)
      case Some(m) =>
        var rest := ReadAll(fs[1..]);
        if rest.Err? then
          assert Unparsable(fs) by {
            var f :| f in fs[1..] && f.json.None?;
            assert f in fs;
          }
          Err(rest.error)
        else
          var out := [ScannedPackage(fs[0].path, m)] + rest.value;
          assert forall i :: 0 < i < |fs| ==> out[i] == rest.value[i - 1] && fs[i] == fs[1..][i - 1];
          Ok(out)
  }

  /** The breadth-first loop of `findWorkspacePackages`: dequeue a
      directory, read its package.json files, queue its subdirectories. */
  function Bfs(queue: seq<Visit>, found: seq<ScannedPackage>): (r: Result<seq<ScannedPackage>>)
    ensures r.Err? ==> r.error == ScanWorkspace
    ensures r.Ok? ==> |found| <= |r.value| && r.value[..|found|] == found
    decreases QueueSize(queue)
  {
    if queue == [] then Ok(found)
    else
      var v := queue[0];
      match ReadAll(ManifestFiles(v.dir, v.entries))
      case Err(e) => Err(e)
      case Ok(pkgs) =>
        var next := queue[1..] + Subdirs(v.dir, v.entries);
        QueueSizeAppend(queue[1..], Subdirs(v.dir, v.entries));
        var r := Bfs(next, found + pkgs);
        assert r.Ok? ==> r.value[..|found|] == r.value[..|found + pkgs|][..|found|];
        r
  }

  /** Reference traversal: the package.json files reachable from `dir`, in
      depth-first order. */
  function Reach(dir: Path, es: seq<Entry>): (r: seq<Found>)
    ensures forall i :: 0 <= i < |r| ==> VisibleManifestPath(dir, r[i].path)
    ensures forall p :: VisibleManifestPath(dir, p) && IsFileAt(Dir(es), p[|dir|..]) ==>
      Found(p, NodeAt(Dir(es), p[|dir|..]).value.json) in r
    decreases EntriesSize(es)
  {
    if es == [] then []
    else
      var e := es[0];
      assert EntriesSize(es) == NodeSize(e.node) + EntriesSize(es[1..]);
      var here :=
        if Enterable(e) then Reach(dir + [e.name], e.node.entries)
        else if IsManifestFile(e) then [Found(dir + [e.name], e.node.json)]
        else [];
      var rest := Reach(dir, es[1..]);
      forall i | 0 <= i < |here|
        ensures VisibleManifestPath(dir, here[i].path)
      {
        if Enterable(e) {
          VisibleWiden(dir, e.name, here[i].path);
        }
      }
      forall p | VisibleManifestPath(dir, p) && IsFileAt(Dir(es), p[|dir|..])
        ensures Found(p, NodeAt(Dir(es), p[|dir|..]).value.json) in here + rest
      {
        FileAtDir(dir, es, p);
        if e.name == p[|dir|] {
          assert Found(p, NodeAt(Dir(es), p[|dir|..]).value.json) in here;
        } else {
          assert Found(p, NodeAt(Dir(es), p[|dir|..]).value.json) in rest;
        }
      }
      here + rest
  }

  /** A file at a visible path below a listing is the listing's first entry
      itself, lies visibly below that entry, or lies below the rest of the
      listing. */
  lemma FileAtDir(dir: Path, es: seq<Entry>, p: Path)
    requires VisibleManifestPath(dir, p) && IsFileAt(Dir(es), p[|dir|..])
    ensures es != []
    ensures var e, q := es[0], p[|dir|..];
      && (e.name == p[|dir|] && |p| == |dir| + 1 ==>
           IsManifestFile(e) && p == dir + [e.name] && NodeAt(Dir(es), q) == Some(e.node))
      && (e.name == p[|dir|] && |p| > |dir| + 1 ==>
           && Enterable(e) && VisibleManifestPath(dir + [e.name], p)
           && p[|dir + [e.name]|..] == q[1..]
           && Dir(e.node.entries) == e.node && NodeAt(Dir(es), q) == NodeAt(e.node, q[1..]))
      && (e.name != p[|dir|] ==> NodeAt(Dir(es), q) == NodeAt(Dir(es[1..]), q))
  {
    var q := p[|dir|..];
    if es != [] {
      NodeAtDir(es, q);
      var e := es[0];
      if e.name == q[0] {
        if |p| == |dir| + 1 {
          assert p == dir + [e.name];
        } else {
          assert p[..|dir| + 1] == dir + [e.name];
          assert p[|dir| + 1..] == q[1..];
        }
      }
    }
  }

  /** A node below a listing's first entry is below the listing. */
  lemma NodeInFirst(es: seq<Entry>, dir: Path, p: Path)
    requires es != [] && |dir| < |p| && p[..|dir| + 1] == dir + [es[0].name]
    ensures NodeAt(Dir(es), p[|dir|..]) == NodeAt(es[0].node, p[|dir + [es[0].name]|..])
  {
    var q := p[|dir|..];
    NodeAtDir(es, q);
    assert q[0] == p[..|dir| + 1][|dir|];
    assert q[1..] == p[|dir| + 1..];
  }

  /** In a well-formed listing, a node below the rest of it is below the
      whole listing. */
  lemma NodeInRest(es: seq<Entry>, q: Path)
    requires es != [] && WellFormed(Dir(es)) && q != [] && NodeAt(Dir(es[1..]), q).Some?
    ensures NodeAt(Dir(es), q) == NodeAt(Dir(es[1..]), q)
  {
    WellFormedSplit(es);
    NodeAtDir(es, q);
    assert Child(es[1..], q[0]).Some?;
  }

  /** In a well-formed tree, a file the reference traversal lists lies
      strictly below `dir`, and is the file at that path with that parse
      result. */
  lemma {:induction false} ReachSoundAt(dir: Path, es: seq<Entry>, f: Found)
    requires WellFormed(Dir(es)) && f in Reach(dir, es)
    ensures |dir| < |f.path| && NodeAt(Dir(es), f.path[|dir|..]) == Some(File(f.json))
    decreases EntriesSize(es)
  {
    var e := es[0];
    assert EntriesSize(es) == NodeSize(e.node) + EntriesSize(es[1..]);
    WellFormedSplit(es);
    var here :=
      if Enterable(e) then Reach(dir + [e.name], e.node.entries)
      else if IsManifestFile(e) then [Found(dir + [e.name], e.node.json)]
      else [];
    var rest := Reach(dir, es[1..]);
    assert Reach(dir, es) == here + rest;
    if f in here {
      if Enterable(e) {
        ReachSoundAt(dir + [e.name], e.node.entries, f);
        var i :| 0 <= i < |here| && here[i] == f;
        assert f.path[..|dir| + 1] == dir + [e.name];
      }
      NodeInFirst(es, dir, f.path);
    } else {
      ReachSoundAt(dir, es[1..], f);
      NodeInRest(es, f.path[|dir|..]);
    }
  }

  /** Every file the reference traversal lists, as above. */
  lemma ReachSound(dir: Path, es: seq<Entry>)
    requires WellFormed(Dir(es))
    ensures forall f :: f in Reach(dir, es) ==>
      |dir| < |f.path| && NodeAt(Dir(es), f.path[|dir|..]) == Some(File(f.json))
  {
    forall f | f in Reach(dir, es)
      ensures |dir| < |f.path| && NodeAt(Dir(es), f.path[|dir|..]) == Some(File(f.json))
    {
      ReachSoundAt(dir, es, f);
    }
  }

  /** No two listed files share a path. */
  predicate DistinctPaths(fs: seq<Found>) {
    forall i, j :: 0 <= i < j < |fs| ==> fs[i].path != fs[j].path
  }

  /** The reference traversal of a listing is that of its first entry
      followed by that of the rest; an entry the scan does not enter
      contributes at most itself. */
  lemma ReachUnfold(dir: Path, es: seq<Entry>)
    requires es != []
    ensures Enterable(es[0]) ==> Reach(dir, es) == Reach(dir + [es[0].name], es[0].node.entries) + Reach(dir, es[1..])
    ensures !Enterable(es[0]) && IsManifestFile(es[0]) ==>
      Reach(dir, es) == [Found(dir + [es[0].name], es[0].node.json)] + Reach(dir, es[1..])
    ensures !Enterable(es[0]) && !IsManifestFile(es[0]) ==> Reach(dir, es) == Reach(dir, es[1..])
  {
    assert EntriesSize(es) == NodeSize(es[0].node) + EntriesSize(es[1..]);
  }

  /** A manifest path visible below `dir + [name]` continues `dir` with `name`. */
  lemma PathHead(dir: Path, name: string, p: Path)
    requires VisibleManifestPath(dir + [name], p)
    ensures |dir| < |p| && p[|dir|] == name
  {
    assert p[|dir|] == p[..|dir| + 1][|dir|];
  }

  /** A file the first entry of a listing contributes lies below that entry. */
  lemma ReachHead(dir: Path, es: seq<Entry>, i: int)
    requires es != [] && 0 <= i < |Reach(dir, es)| - |Reach(dir, es[1..])|
    ensures |dir| < |Reach(dir, es)[i].path| && Reach(dir, es)[i].path[|dir|] == es[0].name
  {
    var e := es[0];
    ReachUnfold(dir, es);
    if Enterable(e) {
      var sub := Reach(dir + [e.name], e.node.entries);
      assert Reach(dir, es)[i] == sub[i];
      PathHead(dir, e.name, sub[i].path);
    }
  }

  /** In a well-formed listing, a file the rest of it contributes does not
      lie below the first entry. */
  lemma RestHead(dir: Path, es: seq<Entry>, g: Found)
    requires WellFormed(Dir(es)) && es != [] && g in Reach(dir, es[1..])
    ensures |dir| < |g.path| && g.path[|dir|] != es[0].name
  {
    WellFormedSplit(es);
    ReachSoundAt(dir, es[1..], g);
    assert Child(es[1..], g.path[|dir|]).Some?;
  }

  /** Every file of the list lies below `name` at depth `n`. */
  predicate AllBelow(fs: seq<Found>, n: nat, name: string) {
    forall k :: 0 <= k < |fs| ==> n < |fs[k].path| && fs[k].path[n] == name
  }

  /** No file of the list lies below `name` at depth `n`. */
  predicate NoneBelow(fs: seq<Found>, n: nat, name: string) {
    forall k :: 0 <= k < |fs| ==> n < |fs[k].path| && fs[k].path[n] != name
  }

  /** Joining two lists without repeated paths, split by the name at one
      depth, repeats no path. */
  lemma DistinctJoin(a: seq<Found>, b: seq<Found>, n: nat, name: string)
    requires DistinctPaths(a) && DistinctPaths(b)
    requires AllBelow(a, n, name) && NoneBelow(b, n, name)
    ensures DistinctPaths(a + b)
  {
    var c := a + b;
    forall i, j | 0 <= i < j < |c|
      ensures c[i].path != c[j].path
    {
      if j < |a| {
        assert c[i] == a[i] && c[j] == a[j];
      } else if i >= |a| {
        assert c[i] == b[i - |a|] && c[j] == b[j - |a|];
      } else {
        assert c[i] == a[i] && c[j] == b[j - |a|];
        assert c[i].path[n] != c[j].path[n];
      }
    }
  }

  /** In a well-formed tree the reference traversal lists each path once. */
  lemma {:induction false} ReachDistinct(dir: Path, es: seq<Entry>)
    requires WellFormed(Dir(es))
    ensures DistinctPaths(Reach(dir, es))
    decreases EntriesSize(es)
  {
    if es != [] {
      var e := es[0];
      assert EntriesSize(es) == NodeSize(e.node) + EntriesSize(es[1..]);
      WellFormedSplit(es);
      ReachUnfold(dir, es);
      ReachDistinct(dir, es[1..]);
      var r, rest := Reach(dir, es), Reach(dir, es[1..]);
      var h := |r| - |rest|;
      var here := r[..h];
      assert r == here + rest;
      if Enterable(e) {
        ReachDistinct(dir + [e.name], e.node.entries);
      }
      forall k | 0 <= k < |here|
        ensures |dir| < |here[k].path| && here[k].path[|dir|] == e.name
      {
        ReachHead(dir, es, k);
      }
      forall k | 0 <= k < |rest|
        ensures |dir| < |rest[k].path| && rest[k].path[|dir|] != e.name
      {
        RestHead(dir, es, rest[k]);
      }
      DistinctJoin(here, rest, |dir|, e.name);
    }
  }

  /** A list without a repeated path holds each file at most once. */
  lemma {:induction false} DistinctCount(s: seq<Found>, x: Found)
    requires DistinctPaths(s)
    ensures multiset(s)[x] <= 1
  {
    if s != [] {
      var tail := s[1..];
      forall i, j | 0 <= i < j < |tail|
        ensures tail[i].path != tail[j].path
      {
        assert tail[i] == s[i + 1] && tail[j] == s[j + 1];
      }
      DistinctCount(tail, x);
      assert s == [s[0]] + tail;
      if s[0] == x {
        forall k | 0 <= k < |tail|
          ensures tail[k] != x
        {
          assert tail[k] == s[k + 1];
        }
      }
    }
  }

  /** A value at two positions is counted at least twice. */
  lemma TwiceCounted(s: seq<Found>, i: int, j: int)
    requires 0 <= i < j < |s|
    ensures s[i] == s[j] ==> multiset(s)[s[i]] >= 2
  {
    assert s == s[..i] + [s[i]] + s[i + 1..j] + [s[j]] + s[j + 1..];
  }

  /** In a list without a repeated path, files with the same path are equal. */
  lemma SamePathSame(s: seq<Found>, f: Found, g: Found)
    requires DistinctPaths(s) && f in s && g in s
    ensures f.path == g.path ==> f == g
  {
    if f.path == g.path {
      var k :| 0 <= k < |s| && s[k] == f;
      var l :| 0 <= l < |s| && s[l] == g;
      assert k == l;
    }
  }

  /** The reference traversal of every queued directory, in queue order. */
  function QueueReach(q: seq<Visit>): seq<Found> {
    if q == [] then [] else Reach(q[0].dir, q[0].entries) + QueueReach(q[1..])
  }

  lemma {:induction false} QueueReachAppend(a: seq<Visit>, b: seq<Visit>)
    ensures QueueReach(a + b) == QueueReach(a) + QueueReach(b)
  {
    if a != [] {
      assert (a + b)[0] == a[0] && (a + b)[1..] == a[1..] + b;
      QueueReachAppend(a[1..], b);
    } else {
      assert a + b == b;
    }
  }

  /** What is reachable from a directory is its own package.json files plus
      what is reachable from the subdirectories it queues. */
  lemma {:induction false} ReachSplit(dir: Path, es: seq<Entry>)
    ensures multiset(Reach(dir, es)) == multiset(ManifestFiles(dir, es)) + multiset(QueueReach(Subdirs(dir, es)))
    decreases |es|
  {
    if es != [] {
      var e := es[0];
      var hereDirs := if Enterable(e) then [Visit(dir + [e.name], e.node.entries)] else [];
      ReachSplit(dir, es[1..]);
      QueueReachAppend(hereDirs, Subdirs(dir, es[1..]));
      if Enterable(e) {
        assert QueueReach(hereDirs) == Reach(dir + [e.name], e.node.entries) + QueueReach([]);
      }
    }
  }

  /** A collected package corresponds to a parsed file of the list. */
  predicate ParsedIn(sp: ScannedPackage, fs: seq<Found>) {
    Found(sp.path, Some(sp.pkg)) in fs
  }

  /** One step of the loop: what the queue reaches is what the dequeued
      directory's own files and the next queue reach. */
  lemma {:induction false} StepMembers(queue: seq<Visit>)
    requires queue != []
    ensures var v := queue[0];
      var next := queue[1..] + Subdirs(v.dir, v.entries);
      forall f :: f in QueueReach(queue) <==> f in ManifestFiles(v.dir, v.entries) || f in QueueReach(next)
  {
    var v := queue[0];
    var subs := Subdirs(v.dir, v.entries);
    var next := queue[1..] + subs;
    ReachSplit(v.dir, v.entries);
    QueueReachAppend(queue[1..], subs);
    forall f
      ensures f in QueueReach(queue) <==> f in ManifestFiles(v.dir, v.entries) || f in QueueReach(next)
    {
      assert f in Reach(v.dir, v.entries) <==> f in multiset(Reach(v.dir, v.entries));
      assert f in QueueReach(subs) <==> f in multiset(QueueReach(subs));
      assert f in ManifestFiles(v.dir, v.entries) <==> f in multiset(ManifestFiles(v.dir, v.entries));
    }
  }

  /** The breadth-first loop fails iff some package.json reachable from the
      queue does not parse, and then with ESCANWS. */
  lemma {:induction false} BfsFails(queue: seq<Visit>, found: seq<ScannedPackage>)
    ensures Bfs(queue, found).Err? <==> Unparsable(QueueReach(queue))
    ensures Bfs(queue, found).Err? ==> Bfs(queue, found).error == ScanWorkspace
    decreases QueueSize(queue)
  {
    if queue != [] {
      var v := queue[0];
      var files := ManifestFiles(v.dir, v.entries);
      var subs := Subdirs(v.dir, v.entries);
      var next := queue[1..] + subs;
      StepMembers(queue);
      match ReadAll(files)
      case Err(_) =>
        var f :| f in files && f.json.None?;
        assert f in QueueReach(queue);
      case Ok(pkgs) =>
        QueueSizeAppend(queue[1..], subs);
        BfsFails(next, found + pkgs);
        if Unparsable(QueueReach(queue)) {
          var f :| f in QueueReach(queue) && f.json.None?;
          assert f in QueueReach(next);
        }
        if Unparsable(QueueReach(next)) {
          var f :| f in QueueReach(next) && f.json.None?;
          assert f in QueueReach(queue);
        }
    }
  }

  /** When the breadth-first loop succeeds it adds exactly the manifests
      reachable from the queue. */
  lemma {:induction false} BfsCollects(queue: seq<Visit>, found: seq<ScannedPackage>)
    ensures Bfs(queue, found).Ok? ==> forall sp :: sp in Bfs(queue, found).value <==>
      sp in found || ParsedIn(sp, QueueReach(queue))
    decreases QueueSize(queue)
  {
    if queue != [] {
      var v := queue[0];
      var files := ManifestFiles(v.dir, v.entries);
      var subs := Subdirs(v.dir, v.entries);
      var next := queue[1..] + subs;
      match ReadAll(files)
      case Err(_) =>
      case Ok(pkgs) =>
        StepMembers(queue);
        QueueSizeAppend(queue[1..], subs);
        BfsCollects(next, found + pkgs);
        assert Bfs(queue, found) == Bfs(next, found + pkgs);
        forall sp
          ensures sp in pkgs <==> ParsedIn(sp, files)
          ensures ParsedIn(sp, QueueReach(queue)) <==> ParsedIn(sp, files) || ParsedIn(sp, QueueReach(next))
        {
          if ParsedIn(sp, files) {
            var i :| 0 <= i < |files| && files[i] == Found(sp.path, Some(sp.pkg));
            assert pkgs[i] == sp;
          }
        }
    }
  }

  /** The collected packages as the parsed files they were read from. */
  function AsFound(sps: seq<ScannedPackage>): seq<Found> {
    seq(|sps|, i requires 0 <= i < |sps| => Found(sps[i].path, Some(sps[i].pkg)))
  }

  lemma AsFoundAppend(a: seq<ScannedPackage>, b: seq<ScannedPackage>)
    ensures AsFound(a + b) == AsFound(a) + AsFound(b)
  {
  }

  /** What the queue reaches, counted with multiplicity, is the dequeued
      directory's own files plus what the next queue reaches. */
  lemma StepMultiset(queue: seq<Visit>)
    requires queue != []
    ensures var v := queue[0];
      multiset(QueueReach(queue)) ==
        multiset(ManifestFiles(v.dir, v.entries)) + multiset(QueueReach(queue[1..] + Subdirs(v.dir, v.entries)))
  {
    var v := queue[0];
    var subs := Subdirs(v.dir, v.entries);
    ReachSplit(v.dir, v.entries);
    QueueReachAppend(queue[1..], subs);
  }

  /** On success the breadth-first loop adds each parsed manifest reachable
      from the queue exactly as often as the reference walk meets it: the
      result, read back as files, is a permutation of what was already
      found followed by the walk. */
  lemma {:induction false} BfsPermutes(queue: seq<Visit>, found: seq<ScannedPackage>)
    ensures Bfs(queue, found).Ok? ==>
      multiset(AsFound(Bfs(queue, found).value)) == multiset(AsFound(found)) + multiset(QueueReach(queue))
    ensures Bfs(queue, found).Ok? ==> |Bfs(queue, found).value| == |found| + |QueueReach(queue)|
    decreases QueueSize(queue)
  {
    if queue == [] {
      assert QueueReach(queue) == [];
    } else {
      var v := queue[0];
      var files := ManifestFiles(v.dir, v.entries);
      var subs := Subdirs(v.dir, v.entries);
      var next := queue[1..] + subs;
      var rd := ReadAll(files);
      if rd.Ok? {
        QueueSizeAppend(queue[1..], subs);
        BfsPermutes(next, found + rd.value);
        assert Bfs(queue, found) == Bfs(next, found + rd.value);
        assert AsFound(rd.value) == files;
        AsFoundAppend(found, rd.value);
        StepMultiset(queue);
      }
    }
  }

  /** `findWorkspacePackages`: a root that is not a readable directory fails
      the scan; otherwise the scan fails iff some package.json reachable from
      the root does not parse, and succeeds with exactly the reachable ones. */
  function FindWorkspacePackages(fs: Node, root: Path): (r: Result<seq<ScannedPackage>>)
    ensures r.Err? ==> r.error == ScanWorkspace
    ensures !(NodeAt(fs, root).Some? && NodeAt(fs, root).value.Dir?) ==> r.Err?
    ensures NodeAt(fs, root).Some? && NodeAt(fs, root).value.Dir? ==>
      var es := NodeAt(fs, root).value.entries;
      && (r.Err? <==> Unparsable(Reach(root, es)))
      && (r.Ok? ==> forall sp :: sp in r.value <==> ParsedIn(sp, Reach(root, es)))
      && (r.Ok? ==> multiset(AsFound(r.value)) == multiset(Reach(root, es)))
      && (r.Ok? ==> |r.value| == |Reach(root, es)|)
  {
    match NodeAt(fs, root)
    case Some(Dir(es)) =>
      BfsFails([Visit(root, es)], []);
      BfsCollects([Visit(root, es)], []);
      BfsPermutes([Visit(root, es)], []);
      assert AsFound([]) == [];
      assert QueueReach([Visit(root, es)]) == Reach(root, es) + QueueReach([]);
      assert Reach(root, es) + QueueReach([]) == Reach(root, es);
      Bfs([Visit(root, es)], [])
    case _ => Err(ScanWorkspace)
  }

  /** Some visible package.json below `root` is a file that does not parse. */
  ghost predicate UnparsableBelow(fs: Node, root: Path) {
    exists p :: VisibleManifestPath(root, p) && IsFileAt(fs, p) && ReadJson(fs, p).None?
  }

  /** In a well-formed tree, a file the reference traversal lists from
      `root`'s node is the file at its full path. */
  lemma ReachReadsByPath(fs: Node, root: Path, f: Found)
    requires WellFormed(fs) && NodeAt(fs, root).Some? && NodeAt(fs, root).value.Dir?
    requires f in Reach(root, NodeAt(fs, root).value.entries)
    ensures VisibleManifestPath(root, f.path) && NodeAt(fs, f.path) == Some(File(f.json))
  {
    var es := NodeAt(fs, root).value.entries;
    var reach := Reach(root, es);
    WellFormedAt(fs, root);
    ReachSound(root, es);
    var i :| 0 <= i < |reach| && reach[i] == f;
    NodeBelow(fs, root, f.path);
  }

  /** In a well-formed tree, the scan from a directory root fails iff some
      visible package.json file below it does not parse. */
  lemma ScanFailsByPath(fs: Node, root: Path)
    requires WellFormed(fs) && NodeAt(fs, root).Some? && NodeAt(fs, root).value.Dir?
    ensures FindWorkspacePackages(fs, root).Err? <==> UnparsableBelow(fs, root)
  {
    var es := NodeAt(fs, root).value.entries;
    var reach := Reach(root, es);
    if Unparsable(reach) {
      var f :| f in reach && f.json.None?;
      ReachReadsByPath(fs, root, f);
      assert IsFileAt(fs, f.path) && ReadJson(fs, f.path).None?;
    }
    if UnparsableBelow(fs, root) {
      var p :| VisibleManifestPath(root, p) && IsFileAt(fs, p) && ReadJson(fs, p).None?;
      NodeBelow(fs, root, p);
      assert Found(p, None) in reach;
    }
  }

  /** In a well-formed tree, two positions of a successful scan hold
      different paths. */
  lemma ResultPathsDistinct(fs: Node, root: Path, i: int, j: int)
    requires WellFormed(fs) && NodeAt(fs, root).Some? && NodeAt(fs, root).value.Dir?
    requires FindWorkspacePackages(fs, root).Ok? && 0 <= i < j < |FindWorkspacePackages(fs, root).value|
    ensures FindWorkspacePackages(fs, root).value[i].path != FindWorkspacePackages(fs, root).value[j].path
  {
    var es := NodeAt(fs, root).value.entries;
    var reach := Reach(root, es);
    var a := AsFound(FindWorkspacePackages(fs, root).value);
    WellFormedAt(fs, root);
    ReachDistinct(root, es);
    assert multiset(a) == multiset(reach);
    assert a[i] in multiset(a) && a[j] in multiset(a);
    TwiceCounted(a, i, j);
    DistinctCount(reach, a[i]);
    SamePathSame(reach, a[i], a[j]);
  }

  /** In a well-formed tree, the scan reads each path on its own, as
      `readPackageJson(fullPath)` does: from a directory root it fails iff
      some visible package.json file there does not parse, and otherwise
      collects exactly the visible package.json paths with what they parse
      to. */
  lemma ScanReadsByPath(fs: Node, root: Path)
    requires WellFormed(fs) && NodeAt(fs, root).Some? && NodeAt(fs, root).value.Dir?
    ensures var r := FindWorkspacePackages(fs, root);
      && (r.Err? <==> UnparsableBelow(fs, root))
      && (r.Ok? ==> forall sp: ScannedPackage :: sp in r.value <==> VisibleManifestPath(root, sp.path) && ReadJson(fs, sp.path) == Some(sp.pkg))
      && (r.Ok? ==> forall i, j :: 0 <= i < j < |r.value| ==> r.value[i].path != r.value[j].path)
  {
    var es := NodeAt(fs, root).value.entries;
    var r := FindWorkspacePackages(fs, root);
    var reach := Reach(root, es);
    ScanFailsByPath(fs, root);
    if r.Ok? {
      forall i, j | 0 <= i < j < |r.value|
        ensures r.value[i].path != r.value[j].path
      {
        ResultPathsDistinct(fs, root, i, j);
      }
      forall sp: ScannedPackage
        ensures sp in r.value <==> VisibleManifestPath(root, sp.path) && ReadJson(fs, sp.path) == Some(sp.pkg)
      {
        if ParsedIn(sp, reach) {
          ReachReadsByPath(fs, root, Found(sp.path, Some(sp.pkg)));
        }
        if VisibleManifestPath(root, sp.path) && ReadJson(fs, sp.path) == Some(sp.pkg) {
          NodeBelow(fs, root, sp.path);
          assert ParsedIn(sp, reach);
        }
      }
    }
  }
}

=== FILE: filetree.dfy ===
/** The filesystem the plugin reads, as an immutable directory tree. */
module FileTree {
  import opened Results
  import opened Strings
  import opened Paths
  import opened Manifests

  /** What `JSON.parse` returns for text that parses: `null`, some other
      value that is not an object (a number, string, boolean or array, on
      which reading `name`, `version` or a dependency section gives
      `undefined`), or an object with the manifest fields it has. */
  datatype Json = Null | NotObject | Object(fields: Manifest)

  /** The fields a non-null parse result shows to property reads, and what
      `{ ...v }` copies of it: an object's own fields, none otherwise. (An
      array or a string also spreads its indices, but no dependency section
      is among them.) */
  function ObjectView(v: Json): (m: Manifest)
    ensures v.Object? ==> m == v.fields
    ensures !v.Object? ==> m.name.None? && m.version.None? && m.sections == map[]
  {
    if v.Object? then v.fields else EmptyManifest
  }

  /** A directory with its entries in `readdirSync` order, or a file given by
      what `JSON.parse` makes of it (None when reading or parsing throws). */
  datatype Node = Dir(entries: seq<Entry>) | File(json: Option<Json>)

  /** A named entry of a directory. */
  datatype Entry = Entry(name: string, node: Node)

  /** The file name of a manifest. */
  const ManifestName := "package.json"

  /** Directories both scanners refuse to enter: dependency caches and
      dot-directories. */
  predicate Skipped(name: string) {
    name == "node_modules" || StartsWith(name, ".")
  }

  /** A termination measure: the number of nodes. */
  function NodeSize(n: Node): nat {
    match n
    case File(_) => 1
    case Dir(es) => 1 + EntriesSize(es)
  }

  function EntriesSize(es: seq<Entry>): nat {
    if es == [] then 0 else NodeSize(es[0].node) + EntriesSize(es[1..])
  }

  /** The first entry of a listing with the given name. */
  function Child(entries: seq<Entry>, name: string): (r: Option<Node>)
    ensures r.Some? ==> exists i :: 0 <= i < |entries| && entries[i] == Entry(name, r.value)
    ensures r.None? <==> forall i :: 0 <= i < |entries| ==> entries[i].name != name
    decreases |entries|
  {
    if entries == [] then None
    else if entries[0].name == name then Some(entries[0].node)
    else Child(entries[1..], name)
  }

  /** The node at path `p` below `n`, if any. */
  function NodeAt(n: Node, p: Path): Option<Node>
    decreases |p|
  {
    if p == [] then Some(n)
    else match n
      case Dir(es) =>
        (match Child(es, p[0])
         case Some(c) => NodeAt(c, p[1..])
         case None => None)
      case File(_) => None
  }

  /** `fs.existsSync(p)`: a file or a directory is there. */
  predicate Exists(fs: Node, p: Path) {
    NodeAt(fs, p).Some?
  }

  /** `JSON.parse(fs.readFileSync(p))`: the parsed value when `p` is a file
      that parses, whether or not it is an object; nothing when it is
      missing, a directory, or unparsable (each of which makes the read
      throw). */
  function ReadJson(fs: Node, p: Path): (r: Option<Json>)
    ensures r.Some? <==> NodeAt(fs, p).Some? && NodeAt(fs, p).value.File? && NodeAt(fs, p).value.json.Some?
    ensures r.Some? ==> NodeAt(fs, p) == Some(File(r))
  {
    match NodeAt(fs, p)
    case Some(File(json)) => json
    case _ => None
  }

  /** A file write: the path and the manifest serialised to it. */
  datatype Write = Write(path: Path, content: Manifest)

  /** `writePackageJson(p, content)`, with the outcome of `writeFileSync` as
      `writeSucceeds`: the write, or EWRITEPKG when it throws. */
  function WritePackageJson(p: Path, content: Manifest, writeSucceeds: bool): (r: Result<Write>)
    ensures r.Err? <==> !writeSucceeds
    ensures r.Err? ==> r.error == WritePackage
    ensures r.Ok? ==> r.value.path == p && r.value.content == content
  {
    if writeSucceeds then Ok(Write(p, content)) else Err(WritePackage)
  }

  /** The node at `q` below `n` is a file (parsed or not). */
  predicate IsFileAt(n: Node, q: Path) {
    NodeAt(n, q).Some? && NodeAt(n, q).value.File?
  }

  /** The object the file at `q` below `n` parses to, if it is one. */
  function ObjectAt(n: Node, q: Path): Option<Manifest> {
    match NodeAt(n, q)
    case Some(File(Some(Object(m)))) => Some(m)
    case _ => None
  }

  /** A non-empty path below a directory: the first step picks the first
      entry of that name. */
  lemma NodeAtDir(es: seq<Entry>, q: Path)
    requires es != [] && q != []
    ensures NodeAt(Dir(es), q) ==
      if es[0].name == q[0] then NodeAt(es[0].node, q[1..]) else NodeAt(Dir(es[1..]), q)
  {
  }

  /** Every directory lists each name at most once, as a directory on disk
      does. */
  predicate WellFormed(n: Node) {
    match n
    case File(_) => true
    case Dir(es) =>
      && (forall i, j :: 0 <= i < j < |es| ==> es[i].name != es[j].name)
      && (forall i :: 0 <= i < |es| ==> WellFormed(es[i].node))
  }

  /** In a well-formed listing the first entry and the rest are well formed,
      and the rest holds no second entry of the first entry's name. */
  lemma WellFormedSplit(es: seq<Entry>)
    requires es != [] && WellFormed(Dir(es))
    ensures WellFormed(es[0].node) && WellFormed(Dir(es[1..]))
    ensures Child(es[1..], es[0].name).None?
  {
    var rest := es[1..];
    forall i | 0 <= i < |rest|
      ensures rest[i].name != es[0].name && WellFormed(rest[i].node)
    {
      assert rest[i] == es[i + 1];
    }
  }

  /** A path through a tree is a path to a node and a path below it. */
  lemma {:induction false} NodeAtAppend(n: Node, a: Path, b: Path)
    requires NodeAt(n, a).Some?
    ensures NodeAt(n, a + b) == NodeAt(NodeAt(n, a).value, b)
    decreases |a|
  {
    if a == [] {
      assert a + b == b;
    } else {
      assert (a + b)[0] == a[0] && (a + b)[1..] == a[1..] + b;
      NodeAtAppend(Child(n.entries, a[0]).value, a[1..], b);
    }
  }

  /** A path below `root` reaches the node it reaches from `root`'s node. */
  lemma NodeBelow(fs: Node, root: Path, p: Path)
    requires NodeAt(fs, root).Some? && |root| <= |p| && p[..|root|] == root
    ensures NodeAt(fs, p) == NodeAt(NodeAt(fs, root).value, p[|root|..])
  {
    NodeAtAppend(fs, root, p[|root|..]);
    assert root + p[|root|..] == p;
  }

  /** Every node of a well-formed tree is well formed. */
  lemma {:induction false} WellFormedAt(n: Node, a: Path)
    requires WellFormed(n) && NodeAt(n, a).Some?
    ensures WellFormed(NodeAt(n, a).value)
    decreases |a|
  {
    if a != [] {
      var c := Child(n.entries, a[0]).value;
      var i :| 0 <= i < |n.entries| && n.entries[i] == Entry(a[0], c);
      WellFormedAt(c, a[1..]);
    }
  }

  /** `p` lies strictly below `dir`, ends in package.json, and every
      directory between them is one the scan enters. */
  predicate VisibleManifestPath(dir: Path, p: Path) {
    && |dir| < |p|
    && p[..|dir|] == dir
    && p[|p| - 1] == ManifestName
    && forall i :: |dir| <= i < |p| - 1 ==> !Skipped(p[i])
  }

  /** A one-step path below a directory names its first entry of that name. */
  lemma NodeAtChild(es: seq<Entry>, name: string)
    ensures NodeAt(Dir(es), [name]) == Child(es, name)
  {
    if Child(es, name).Some? {
      assert NodeAt(Child(es, name).value, [name][1..]) == Child(es, name);
    }
  }

  /** A path visible below a non-skipped subdirectory is visible below its
      parent. */
  lemma VisibleWiden(dir: Path, name: string, p: Path)
    requires !Skipped(name) && VisibleManifestPath(dir + [name], p)
    ensures VisibleManifestPath(dir, p)
  {
    assert p[..|dir|] == (dir + [name])[..|dir|];
  }
}

=== FILE: lastwins.dfy ===
/** Building a JavaScript `Map` by setting keys in order: a later pair with
    the same key overwrites the earlier value. */
module LastWins {

  /** The position of the last pair keyed `k`, or -1 when there is none. */
  function LastIndex<K(==,!new), V>(ps: seq<(K, V)>, k: K): (i: int)
    ensures -1 <= i < |ps|
    ensures i >= 0 ==> ps[i].0 == k
    ensures forall j :: i < j < |ps| ==> ps[j].0 != k
    decreases |ps|
  {
    if ps == [] then -1
    else if ps[|ps| - 1].0 == k then |ps| - 1
    else LastIndex(ps[..|ps| - 1], k)
  }

  /** `acc` after `acc.set(key, value)` for each pair in order. */
  function Fold<K(==,!new), V>(acc: map<K, V>, ps: seq<(K, V)>): (r: map<K, V>)
    ensures forall k :: k in r <==> k in acc || LastIndex(ps, k) >= 0
    ensures forall k :: k in r ==>
      r[k] == if LastIndex(ps, k) >= 0 then ps[LastIndex(ps, k)].1 else acc[k]
    decreases |ps|
  {
    if ps == [] then acc
    else Fold(acc, ps[..|ps| - 1])[ps[|ps| - 1].0 := ps[|ps| - 1].1]
  }

  /** Setting the pairs of `a + b` is setting those of `a`, then those of `b`. */
  lemma {:induction false} FoldAppend<K(!new), V>(acc: map<K, V>, a: seq<(K, V)>, b: seq<(K, V)>)
    ensures Fold(acc, a + b) == Fold(Fold(acc, a), b)
    decreases |b|
  {
    if b == [] {
      assert a + b == a;
    } else {
      assert (a + b)[..|a + b| - 1] == a + b[..|b| - 1];
      FoldAppend(acc, a, b[..|b| - 1]);
    }
  }
}

=== FILE: locate.dfy ===
/** The workspace-root locator of both plugin versions. */
module Locate {
  import opened Results
  import opened Paths
  import opened FileTree

  /** The file that marks a pnpm workspace root. */
  const WorkspaceMarker := "pnpm-workspace.yaml"

  /** The directory `p` holds the marker. */
  predicate HasMarker(fs: Node, p: Path) {
    Exists(fs, p + [WorkspaceMarker])
  }

  /** `findWorkspaceRoot`: walks from `start` towards "/", testing each
      directory before moving to its parent; "/" itself is never tested.
      The result is the nearest ancestor-or-self of `start` other than "/"
      holding the marker, and the search fails exactly when there is none. */
  function FindWorkspaceRoot(fs: Node, start: Path): (r: Result<Path>)
    ensures r.Ok? ==> 0 < |r.value| <= |start| && r.value == start[..|r.value|]
    ensures r.Ok? ==> HasMarker(fs, r.value)
    ensures r.Ok? ==> forall n :: |r.value| < n <= |start| ==> !HasMarker(fs, start[..n])
    ensures r.Err? ==> r.error == WorkspaceNotFound
    ensures r.Err? <==> forall n :: 0 < n <= |start| ==> !HasMarker(fs, start[..n])
    decreases |start|
  {
    if start == [] then Err(WorkspaceNotFound)
    else if HasMarker(fs, start) then Ok(start)
    else
      var parent := Dirname(start);
      var r := FindWorkspaceRoot(fs, parent);
      ParentPrefixes(start);
      r
  }

  /** The directories strictly above `start` are the prefixes of its parent. */
  lemma ParentPrefixes(start: Path)
    requires start != []
    ensures forall n :: 0 <= n <= |Dirname(start)| ==> Dirname(start)[..n] == start[..n]
    ensures start[..|start|] == start
  {
  }
}

=== FILE: manifest.dfy ===
/** The parts of a package.json manifest the plugin reads and rewrites. */
module Manifests {
  import opened Results

  /** The dependency sections the plugin knows about. */
  datatype DepType = Dependencies | DevDependencies | PeerDependencies

  /** One `"name": "value"` pair of a dependency section. */
  datatype DepEntry = DepEntry(name: string, value: string)

  /** A JSON object has at most one property per key. */
  predicate DistinctNames(s: seq<DepEntry>) {
    forall i, j :: 0 <= i < j < |s| ==> s[i].name != s[j].name
  }

  /** A dependency section in `Object.entries` order. */
  type Section = s: seq<DepEntry> | DistinctNames(s)

  /** A parsed manifest: its `name` and `version` fields (absent when missing
      or not strings) and whichever dependency sections it has. */
  datatype Manifest = Manifest(
    name: Option<string>,
    version: Option<string>,
    sections: map<DepType, Section>)

  /** A manifest with no fields: `{}`. */
  const EmptyManifest := Manifest(None, None, map[])

  /** The placeholder pnpm resolves to the local package. */
  const Placeholder := "workspace:*"

  /** One workspace dependency found in a target manifest: its name, its
      section, the declared value and what the scan resolved it to. */
  datatype WorkspaceDep<V> = WorkspaceDep(name: string, section: DepType, declared: string, resolved: V)

  /** `section[name]`: the value of the property, or `undefined`. */
  function Lookup(s: Section, name: string): (r: Option<string>)
    ensures r.None? <==> forall k :: 0 <= k < |s| ==> s[k].name != name
    ensures forall k :: 0 <= k < |s| && s[k].name == name ==> r == Some(s[k].value)
    decreases |s|
  {
    if s == [] then None
    else if s[0].name == name then Some(s[0].value)
    else Lookup(s[1..], name)
  }

  /** JavaScript truthiness of a property read: present and not "". */
  predicate Truthy(v: Option<string>) {
    v.Some? && v.value != ""
  }

  /** `section[name] = value` for a key the section already has: the entry
      keeps its place and only its value changes. */
  function SetValue(s: Section, name: string, value: string): (r: Section)
    ensures |r| == |s|
    ensures forall k :: 0 <= k < |s| ==> r[k].name == s[k].name
    ensures forall k :: 0 <= k < |s| ==> r[k].value == if s[k].name == name then value else s[k].value
    ensures Lookup(r, name) == if Lookup(s, name).Some? then Some(value) else None
    ensures forall other :: other != name ==> Lookup(r, other) == Lookup(s, other)
  {
    seq(|s|, k requires 0 <= k < |s| => DepEntry(s[k].name, if s[k].name == name then value else s[k].value))
  }

  /** Some record of `deps` designates the entry `name` of section `t`. */
  predicate Listed<V>(deps: seq<WorkspaceDep<V>>, t: DepType, name: string) {
    exists i :: 0 <= i < |deps| && deps[i].section == t && deps[i].name == name
  }

  /** `Listed` of a record list whose head is `deps[0]`. */
  lemma ListedCons<V>(deps: seq<WorkspaceDep<V>>, t: DepType, n: string)
    requires deps != []
    ensures Listed(deps, t, n) <==> (deps[0].section == t && deps[0].name == n) || Listed(deps[1..], t, n)
  {
    if Listed(deps[1..], t, n) {
      var i :| 0 <= i < |deps[1..]| && deps[1..][i].section == t && deps[1..][i].name == n;
      assert deps[i + 1] == deps[1..][i];
    }
    if Listed(deps, t, n) {
      var i :| 0 <= i < |deps| && deps[i].section == t && deps[i].name == n;
      if i > 0 {
        assert deps[1..][i - 1] == deps[i];
      }
    }
  }

  /** `Listed` of a concatenation of record lists. */
  lemma ListedAppend<V>(a: seq<WorkspaceDep<V>>, b: seq<WorkspaceDep<V>>, t: DepType, n: string)
    ensures Listed(a + b, t, n) <==> Listed(a, t, n) || Listed(b, t, n)
  {
    if Listed(a, t, n) {
      var i :| 0 <= i < |a| && a[i].section == t && a[i].name == n;
      assert (a + b)[i] == a[i];
    }
    if Listed(b, t, n) {
      var i :| 0 <= i < |b| && b[i].section == t && b[i].name == n;
      assert (a + b)[|a| + i] == b[i];
    }
  }

  /** `m2` differs from `m` at most in the values of existing dependency
      entries: same fields, same sections, same names in the same order. */
  predicate SameShape(m: Manifest, m2: Manifest) {
    && m2.name == m.name
    && m2.version == m.version
    && m2.sections.Keys == m.sections.Keys
    && forall t :: t in m.sections ==>
         && |m2.sections[t]| == |m.sections[t]|
         && forall k :: 0 <= k < |m.sections[t]| ==> m2.sections[t][k].name == m.sections[t][k].name
  }

  /** Two manifests of the same shape whose entries agree are equal. */
  lemma {:induction false} ShapeExtensionality(m: Manifest, m2: Manifest)
    requires SameShape(m, m2)
    requires forall t, k :: t in m.sections && 0 <= k < |m.sections[t]| ==>
      m2.sections[t][k].value == m.sections[t][k].value
    ensures m2 == m
  {
    forall t | t in m.sections
      ensures m2.sections[t] == m.sections[t]
    {
      var s, s2 := m.sections[t], m2.sections[t];
      assert |s2| == |s|;
      forall k | 0 <= k < |s|
        ensures s2[k] == s[k]
      {
        assert s2[k].name == s[k].name && s2[k].value == s[k].value;
      }
    }
    assert m2.sections == m.sections;
  }
}

=== FILE: paths.dfy ===
/** POSIX paths as segment lists, and the string form `path.join` produces. */
module Paths {
  import opened Strings

  /** An absolute, normalised POSIX path given by its segments below "/";
      the empty sequence is "/" itself. */
  type Path = seq<string>

  /** `path.dirname`: the parent directory; the parent of "/" is "/". */
  function Dirname(p: Path): (r: Path)
    ensures p == [] ==> r == []
    ensures p != [] ==> r + [p[|p| - 1]] == p
  {
    if p == [] then [] else p[..|p| - 1]
  }

  /** The path as a string: "/" for the root, "/a/b" otherwise. */
  function Render(p: Path): string {
    if p == [] then "/" else Segments(p)
  }

  /** Each segment preceded by a slash. */
  function Segments(p: Path): string
    decreases |p|
  {
    if p == [] then "" else Segments(p[..|p| - 1]) + "/" + p[|p| - 1]
  }

  lemma {:induction false} SegmentsAppend(a: Path, b: Path)
    ensures Segments(a + b) == Segments(a) + Segments(b)
    decreases |b|
  {
    if b == [] {
      assert a + b == a;
    } else {
      var b' := b[..|b| - 1];
      assert (a + b)[..|a + b| - 1] == a + b';
      SegmentsAppend(a, b');
    }
  }

  /** The string test `Render(b).startsWith(Render(a))` holds whenever `a` is
      an ancestor-or-self of `b`. (The converse fails: "/ws/packages-old"
      starts with "/ws/packages".) */
  lemma RenderPrefix(a: Path, b: Path)
    requires a <= b
    ensures StartsWith(Render(b), Render(a))
  {
    var c := b[|a|..];
    assert b == a + c;
    SegmentsAppend(a, c);
    if a == [] && b != [] {
      SegmentsAppend([b[0]], b[1..]);
      assert [b[0]] + b[1..] == b;
      assert Segments([b[0]]) == "/" + b[0] by {
        assert [b[0]][..0] == [];
      }
    }
  }
}

=== FILE: plugin.dfy ===
/** The older self-contained plugin: its configuration, the analysis state it
    keeps between lifecycle steps, `verifyConditions`, the rewrite in
    `prepare`, and the resets in `success` and `fail`. */
module Plugin {
  import opened Results
  import opened Paths
  import opened Manifests
  import opened FileTree
  import opened Locate
  import opened TreeScan
  import opened Resolver
  import opened Rewrite

  /** The effective plugin configuration. */
  datatype Config = Config(replaceDevDeps: bool)

  /** `DEFAULT_CONFIG`. */
  const DefaultConfig := Config(false)

  /** The options the release configuration passes to the plugin; an
      absent `replaceDevDeps` is `None`. */
  datatype PluginConfig = PluginConfig(replaceDevDeps: Option<bool>)

  /** `{ ...DEFAULT_CONFIG, ...pluginConfig }`: a supplied key wins. */
  function MergeConfig(pc: PluginConfig): (c: Config)
    ensures pc.replaceDevDeps.None? ==> c == DefaultConfig
    ensures pc.replaceDevDeps.Some? ==> c.replaceDevDeps == pc.replaceDevDeps.value
  {
    match pc.replaceDevDeps
    case None => DefaultConfig
    case Some(b) => DefaultConfig.(replaceDevDeps := b)
  }

  /** `analysisState`, with `null` as `None`. */
  datatype AnalysisState = AnalysisState(
    workspaceDeps: Option<seq<WorkspaceDep<PkgInfo>>>,
    packageJson: Option<Json>,
    pkgJsonPath: Option<Path>,
    workspaceRoot: Option<Path>,
    config: Config)

  /** The state at load time and after each reset. */
  const Initial := AnalysisState(None, None, None, None, DefaultConfig)

  /** `verifyConditions` run in `cwd` over the file tree `fs`: the new
      state, and whether the step threw. The config and the target path are
      stored before anything can fail, the root once it is found, and the
      records and manifest only when every step succeeds. */
  function VerifyConditions(s: AnalysisState, pc: PluginConfig, cwd: Path, fs: Node): (r: (AnalysisState, Result<()>))
    ensures r.0.config == MergeConfig(pc)
    ensures r.0.pkgJsonPath == Some(cwd + [ManifestName])
    ensures r.1.Err? ==> r.1.error == Verify
    ensures r.1.Err? ==> r.0.workspaceDeps == s.workspaceDeps && r.0.packageJson == s.packageJson
    ensures (forall n :: 0 < n <= |cwd| ==> !HasMarker(fs, cwd[..n])) ==> r.1.Err? && r.0.workspaceRoot == s.workspaceRoot
    ensures ReadJson(fs, cwd + [ManifestName]).None? || ReadJson(fs, cwd + [ManifestName]) == Some(Null) ==> r.1.Err?
    ensures var rr, target := FindWorkspaceRoot(fs, cwd), ReadJson(fs, cwd + [ManifestName]);
      r.1.Ok? <==>
        && rr.Ok?
        && !(NodeAt(fs, PackagesDir(rr.value)).Some? && NodeAt(fs, PackagesDir(rr.value)).value.File?)
        && target.Some? && target != Some(Null)
    ensures r.1.Ok? ==>
      && r.0.workspaceRoot.Some?
      && var root := r.0.workspaceRoot.value;
      && 0 < |root| <= |cwd| && root == cwd[..|root|] && HasMarker(fs, root)
      && (forall n :: |root| < n <= |cwd| ==> !HasMarker(fs, cwd[..n]))
      && ReadJson(fs, cwd + [ManifestName]) == r.0.packageJson
      && r.0.packageJson.Some? && r.0.workspaceDeps.Some?
      && (forall t, n :: Listed(r.0.workspaceDeps.value, t, n) <==>
           && Examined(t, r.0.config.replaceDevDeps)
           && DepEntry(n, Placeholder) in EntriesOf(ObjectView(r.0.packageJson.value), t)
           && FindWorkspacePackages(fs, root).Ok? && n in FindWorkspacePackages(fs, root).value)
  {
    var config := MergeConfig(pc);
    var path := cwd + [ManifestName];
    var s1 := s.(config := config, pkgJsonPath := Some(path));
    match FindWorkspaceRoot(fs, cwd)
    case Err(_) => (s1, Err(Verify))
    case Ok(root) =>
      var s2 := s1.(workspaceRoot := Some(root));
      match TreeScan.FindWorkspacePackages(fs, root)
      case Err(_) => (s2, Err(Verify))
      case Ok(packages) =>
        match FindWorkspaceDependenciesInPlugin(ReadJson(fs, path), packages, config.replaceDevDeps)
        case Err(_) => (s2, Err(Verify))
        case Ok((deps, m)) => (s2.(workspaceDeps := Some(deps), packageJson := Some(m)), Ok(()))
  }

  /** The rewrite is attempted: a release is planned, the analysis has run,
      this is not a dry run, and there is at least one record. */
  predicate Attempted(s: AnalysisState, nextRelease: Option<string>, dryRun: bool) {
    nextRelease.Some? && s.workspaceDeps.Some? && !dryRun && s.workspaceDeps.value != []
  }

  /** `{ ...analysisState.packageJson }`: the fields of the stored object;
      spreading `null` or another non-object copies no dependency section. */
  function Stored(s: AnalysisState): (m: Manifest)
    ensures s.packageJson.Some? && s.packageJson.value.Object? ==> m == s.packageJson.value.fields
    ensures !(s.packageJson.Some? && s.packageJson.value.Object?) ==> m.sections == map[]
  {
    if s.packageJson.Some? then ObjectView(s.packageJson.value) else EmptyManifest
  }

  /** `prepare` with `nextRelease.version` as `nextRelease` and the outcome
      of `writeFileSync` as `writeSucceeds`: the write it performs, if any.
      Every record whose entry is present and truthy is set to the bare
      version; the file is written only when something was set. */
  function Prepare(s: AnalysisState, nextRelease: Option<string>, dryRun: bool, writeSucceeds: bool): (r: Result<Option<Write>>)
    ensures !Attempted(s, nextRelease, dryRun) ==> r == Ok(None)
    ensures r.Err? ==> r.error == Update
    ensures (r.Err? || r.value.Some?) <==>
      Attempted(s, nextRelease, dryRun)
      && exists t, k :: IsEntry(Stored(s), t, k) && Targeted(Stored(s), s.workspaceDeps.value, t, k)
    ensures r.Err? <==>
      Attempted(s, nextRelease, dryRun)
      && (exists t, k :: IsEntry(Stored(s), t, k) && Targeted(Stored(s), s.workspaceDeps.value, t, k))
      && (!writeSucceeds || s.pkgJsonPath.None?)
    ensures r.Ok? && r.value.Some? ==>
      && s.pkgJsonPath == Some(r.value.value.path)
      && var m, w := Stored(s), r.value.value.content;
      && SameShape(m, w)
      && forall t, k :: IsEntry(m, t, k) ==>
           w.sections[t][k].value == if Targeted(m, s.workspaceDeps.value, t, k) then nextRelease.value else m.sections[t][k].value
  {
    if !Attempted(s, nextRelease, dryRun) then Ok(None)
    else
      var m := Stored(s);
      var deps := s.workspaceDeps.value;
      var (updated, changes) := SetListed(m, deps, nextRelease.value);
      SetListedValues(m, deps, nextRelease.value);
      SetListedFlag(m, deps, nextRelease.value);
      if !changes then Ok(None)
      else if s.pkgJsonPath.None? || !writeSucceeds then Err(Update)
      else Ok(Some(Write(s.pkgJsonPath.value, updated)))
  }

  /** `success`: the state is cleared after a release. */
  function Success(s: AnalysisState): (r: AnalysisState)
    ensures r.workspaceDeps.None? && r.packageJson.None? && r.pkgJsonPath.None? && r.workspaceRoot.None?
    ensures r.config == DefaultConfig
  {
    Initial
  }

  /** `fail`: the state is cleared after a failed release. */
  function Fail(s: AnalysisState): (r: AnalysisState)
    ensures r.workspaceDeps.None? && r.packageJson.None? && r.pkgJsonPath.None? && r.workspaceRoot.None?
    ensures r.config == DefaultConfig
  {
    Initial
  }

  /** After either reset, `prepare` writes nothing until `verifyConditions`
      has run again. */
  lemma ResetDisablesPrepare(s: AnalysisState, nextRelease: Option<string>, dryRun: bool, writeSucceeds: bool)
    ensures Prepare(Success(s), nextRelease, dryRun, writeSucceeds) == Ok(None)
    ensures Prepare(Fail(s), nextRelease, dryRun, writeSucceeds) == Ok(None)
  {
  }

  /** Entry `k` of section `t` is a workspace dependency the resolver picks:
      in an examined section, declared as the placeholder, named after a
      scanned package. */
  predicate Pinned<V>(m: Manifest, replaceDevDeps: bool, known: map<string, V>, t: DepType, k: int)
    requires IsEntry(m, t, k)
  {
    Examined(t, replaceDevDeps) && m.sections[t][k].value == Placeholder && m.sections[t][k].name in known
  }

  /** The entries the rewrite touches are exactly the placeholder entries of
      the examined sections whose name the scan knows. */
  lemma ResolvedTargets<V>(m: Manifest, replaceDevDeps: bool, known: map<string, V>, t: DepType, k: int)
    requires IsEntry(m, t, k)
    ensures Targeted(m, Resolve(m, replaceDevDeps, known), t, k) <==> Pinned(m, replaceDevDeps, known, t, k)
  {
    var s := m.sections[t];
    var e := s[k];
    assert EntriesOf(m, t) == s;
    if DepEntry(e.name, Placeholder) in s {
      var j :| 0 <= j < |s| && s[j] == DepEntry(e.name, Placeholder);
      assert j == k;
    }
  }

  /** After a successful `verifyConditions` and a non-dry release, `prepare`
      writes exactly when the target declares some scanned package as
      `workspace:*` in an examined section, and the written manifest sets
      precisely those entries to the release version. */
  lemma VerifyThenPrepare(s: AnalysisState, pc: PluginConfig, cwd: Path, fs: Node, version: string)
    requires VerifyConditions(s, pc, cwd, fs).1.Ok?
    ensures var v := VerifyConditions(s, pc, cwd, fs).0;
      var m := ObjectView(v.packageJson.value);
      var known := FindWorkspacePackages(fs, v.workspaceRoot.value).value;
      var r := Prepare(v, Some(version), false, true);
      && r.Ok?
      && (r.value.Some? <==> exists t, k :: IsEntry(m, t, k) && Pinned(m, v.config.replaceDevDeps, known, t, k))
      && (r.value.Some? ==> forall t, k :: IsEntry(m, t, k) ==>
            r.value.value.content.sections[t][k].value ==
              if Pinned(m, v.config.replaceDevDeps, known, t, k) then version else m.sections[t][k].value)
  {
    var v := VerifyConditions(s, pc, cwd, fs).0;
    var m := ObjectView(v.packageJson.value);
    var root := v.workspaceRoot.value;
    var known := FindWorkspacePackages(fs, root).value;
    var deps := v.workspaceDeps.value;
    assert deps == Resolve(m, v.config.replaceDevDeps, known);
    forall t, k | IsEntry(m, t, k)
      ensures Targeted(m, deps, t, k) <==> Pinned(m, v.config.replaceDevDeps, known, t, k)
    {
      ResolvedTargets(m, v.config.replaceDevDeps, known, t, k);
    }
    if deps == [] {
      forall t, k | IsEntry(m, t, k)
        ensures !Targeted(m, deps, t, k)
      {
      }
    }
  }
}

=== FILE: resolve.dfy ===
/** The dependency resolver of both versions: which declared dependencies of
    the target manifest are workspace dependencies, and what the scan
    resolved each of them to. */
module Resolver {
  import opened Results
  import opened Manifests
  import opened FileTree
  import opened LastWins
  import opened BfsScan
  import opened TreeScan

  /** Entry `a` comes strictly before entry `b` in `entries`. */
  predicate Before(entries: seq<DepEntry>, a: string, b: string) {
    exists p, q :: 0 <= p < q < |entries| && entries[p].name == a && entries[q].name == b
  }

  /** An order in the tail is an order in the whole list. */
  lemma BeforeTail(entries: seq<DepEntry>, a: string, b: string)
    requires entries != [] && Before(entries[1..], a, b)
    ensures Before(entries, a, b)
  {
    var p, q :| 0 <= p < q < |entries[1..]| && entries[1..][p].name == a && entries[1..][q].name == b;
    assert entries[p + 1].name == a && entries[q + 1].name == b;
  }

  /** The head comes before every entry of the tail. */
  lemma BeforeHead(entries: seq<DepEntry>, b: DepEntry)
    requires entries != [] && b in entries[1..]
    ensures Before(entries, entries[0].name, b.name)
  {
    var q :| 0 <= q < |entries[1..]| && entries[1..][q] == b;
    assert entries[q + 1] == b;
  }

  /** The selection loop over one section: the entries declared exactly as
      the placeholder whose name the scan knows, in manifest order, each
      with the scanned value for its name. */
  function SelectSection<V>(t: DepType, entries: seq<DepEntry>, known: map<string, V>): (r: seq<WorkspaceDep<V>>)
    ensures forall i :: 0 <= i < |r| ==>
      && r[i].section == t && r[i].declared == Placeholder
      && r[i].name in known && r[i].resolved == known[r[i].name]
    ensures forall n :: Listed(r, t, n) <==> DepEntry(n, Placeholder) in entries && n in known
    ensures forall i, j :: 0 <= i < j < |r| ==> Before(entries, r[i].name, r[j].name)
    decreases |entries|
  {
    if entries == [] then []
    else
      var e := entries[0];
      var rest := SelectSection(t, entries[1..], known);
      assert forall x :: x in entries <==> x == e || x in entries[1..];
      if e.value == Placeholder && e.name in known then
        var r := [WorkspaceDep(e.name, t, e.value, known[e.name])] + rest;
        assert r[1..] == rest;
        forall n ensures Listed(r, t, n) <==> (e.name == n || Listed(rest, t, n)) {
          ListedCons(r, t, n);
        }
        forall i, j | 0 <= i < j < |r| ensures Before(entries, r[i].name, r[j].name) {
          if i == 0 {
            assert Listed(rest, t, r[j].name) by { assert rest[j - 1] == r[j]; }
            BeforeHead(entries, DepEntry(r[j].name, Placeholder));
          } else {
            assert r[i] == rest[i - 1] && r[j] == rest[j - 1];
            BeforeTail(entries, r[i].name, r[j].name);
          }
        }
        r
      else
        forall i, j | 0 <= i < j < |rest| ensures Before(entries, rest[i].name, rest[j].name) {
          BeforeTail(entries, rest[i].name, rest[j].name);
        }
        rest
  }

  /** `packageJson[type]`, as the entries the loop iterates over: none when
      the section is absent. */
  function EntriesOf(m: Manifest, t: DepType): seq<DepEntry> {
    if t in m.sections then m.sections[t] else []
  }

  /** The sections the resolver examines: `dependencies` always,
      `devDependencies` only when `replaceDevDeps` is set, never
      `peerDependencies`. */
  predicate Examined(t: DepType, replaceDevDeps: bool) {
    t == Dependencies || (replaceDevDeps && t == DevDependencies)
  }

  /** Every record lies in an examined section, was declared as the
      placeholder, and carries the known value of its name. */
  ghost predicate Picks<V>(r: seq<WorkspaceDep<V>>, replaceDevDeps: bool, known: map<string, V>) {
    forall i :: 0 <= i < |r| ==>
      && Examined(r[i].section, replaceDevDeps) && r[i].declared == Placeholder
      && r[i].name in known && r[i].resolved == known[r[i].name]
  }

  /** No `dependencies` record follows a record of another section. */
  predicate DependenciesFirst<V>(r: seq<WorkspaceDep<V>>) {
    forall i, j :: 0 <= i < j < |r| && r[j].section == Dependencies ==> r[i].section == Dependencies
  }

  /** Records of the same section keep the section's entry order. */
  predicate InManifestOrder<V>(m: Manifest, r: seq<WorkspaceDep<V>>) {
    forall i, j :: 0 <= i < j < |r| && r[i].section == r[j].section ==>
      Before(EntriesOf(m, r[i].section), r[i].name, r[j].name)
  }

  /** The selection of one examined section, as the record list of
      section `t`. */
  lemma SelectionFacts<V>(m: Manifest, t: DepType, replaceDevDeps: bool, known: map<string, V>)
    ensures var r := SelectSection(t, EntriesOf(m, t), known);
      && (Examined(t, replaceDevDeps) ==> Picks(r, replaceDevDeps, known))
      && InManifestOrder(m, r)
      && forall i :: 0 <= i < |r| ==> r[i].section == t
  {
  }

  /** Appending the `devDependencies` records to the `dependencies` ones
      keeps each property. */
  lemma AppendFacts<V>(m: Manifest, a: seq<WorkspaceDep<V>>, b: seq<WorkspaceDep<V>>, replaceDevDeps: bool, known: map<string, V>)
    requires Picks(a, replaceDevDeps, known) && Picks(b, replaceDevDeps, known)
    requires InManifestOrder(m, a) && InManifestOrder(m, b)
    requires forall i :: 0 <= i < |a| ==> a[i].section == Dependencies
    requires forall i :: 0 <= i < |b| ==> b[i].section == DevDependencies
    ensures Picks(a + b, replaceDevDeps, known)
    ensures DependenciesFirst(a + b)
    ensures InManifestOrder(m, a + b)
  {
    var r := a + b;
    forall i | 0 <= i < |r|
      ensures r[i] == if i < |a| then a[i] else b[i - |a|]
    {
    }
  }

  /** The record list both versions build: the `dependencies` selection,
      then the `devDependencies` selection when `replaceDevDeps` is set. */
  function Resolve<V>(m: Manifest, replaceDevDeps: bool, known: map<string, V>): (r: seq<WorkspaceDep<V>>)
    ensures Picks(r, replaceDevDeps, known)
    ensures forall t, n :: Listed(r, t, n) <==>
      Examined(t, replaceDevDeps) && DepEntry(n, Placeholder) in EntriesOf(m, t) && n in known
    ensures DependenciesFirst(r)
    ensures InManifestOrder(m, r)
  {
    var deps := SelectSection(Dependencies, EntriesOf(m, Dependencies), known);
    var dev := if replaceDevDeps then SelectSection(DevDependencies, EntriesOf(m, DevDependencies), known) else [];
    SelectionFacts(m, Dependencies, replaceDevDeps, known);
    SelectionFacts(m, DevDependencies, replaceDevDeps, known);
    AppendFacts(m, deps, dev, replaceDevDeps, known);
    forall t, n ensures Listed(deps + dev, t, n) <==> Listed(deps, t, n) || Listed(dev, t, n) {
      ListedAppend(deps, dev, t, n);
    }
    deps + dev
  }

  /** The (name, version) pairs of the scanned manifests that have a name,
      in scan order. A manifest without a name, or a parse result that is
      not an object, is keyed `undefined` in the helper's map, a key no
      dependency name can match. */
  function NamedPairs(scanned: seq<ScannedPackage>): seq<(string, Option<string>)>
    decreases |scanned|
  {
    if scanned == [] then []
    else
      var last := ObjectView(scanned[|scanned| - 1].pkg);
      NamedPairs(scanned[..|scanned| - 1]) + if last.name.Some? then [(last.name.value, last.version)] else []
  }

  /** Each scanned manifest as the `[pkg.name, pkg.version]` pair it
      contributes to the helper's `Map`. */
  function Keyed(scanned: seq<ScannedPackage>): seq<(Option<string>, Option<string>)> {
    seq(|scanned|, i requires 0 <= i < |scanned| => (ObjectView(scanned[i].pkg).name, ObjectView(scanned[i].pkg).version))
  }

  /** The helper's `pkgVersions` map: a name is known iff some scanned
      manifest has it, and maps to the version of the LAST such manifest. */
  lemma {:induction false} KnownVersions(scanned: seq<ScannedPackage>)
    ensures var known := Fold(map[], NamedPairs(scanned));
      forall n :: (n in known <==> LastIndex(Keyed(scanned), Some(n)) >= 0)
        && (n in known ==> known[n] == ObjectView(scanned[LastIndex(Keyed(scanned), Some(n))].pkg).version)
    decreases |scanned|
  {
    if scanned != [] {
      var init := scanned[..|scanned| - 1];
      var last := ObjectView(scanned[|scanned| - 1].pkg);
      KnownVersions(init);
      var ks, ki := Keyed(scanned), Keyed(init);
      assert ks[..|ks| - 1] == ki;
      var prev := NamedPairs(init);
      var known := Fold(map[], NamedPairs(scanned));
      if last.name.Some? {
        var ps := prev + [(last.name.value, last.version)];
        assert ps[..|ps| - 1] == prev;
        assert known == Fold(map[], prev)[last.name.value := last.version];
      } else {
        assert NamedPairs(scanned) == prev + [];
        assert prev + [] == prev;
      }
    }
  }

  /** The actual version the helper attaches to a dependency. */
  type UtilsDep = WorkspaceDep<Option<string>>

  /** Some scanned package.json holds `null`, so reading its `name` throws. */
  predicate HasNull(scanned: seq<ScannedPackage>) {
    exists j :: 0 <= j < |scanned| && scanned[j].pkg.Null?
  }

  /** A manifest without dependency sections declares no workspace
      dependency. */
  lemma NoSectionsNoRecords<V>(m: Manifest, replaceDevDeps: bool, known: map<string, V>)
    requires m.sections == map[]
    ensures Resolve(m, replaceDevDeps, known) == []
  {
    assert EntriesOf(m, Dependencies) == [] && EntriesOf(m, DevDependencies) == [];
  }

  /** The resolver over the helper's version map: a record iff an examined
      placeholder names a scanned manifest, resolved to the version of the
      last scanned manifest with that name. */
  lemma UtilsPicks(m: Manifest, scanned: seq<ScannedPackage>, replaceDevDeps: bool)
    ensures var deps := Resolve(m, replaceDevDeps, Fold(map[], NamedPairs(scanned)));
      && (forall t, n :: Listed(deps, t, n) <==>
           && Examined(t, replaceDevDeps) && DepEntry(n, Placeholder) in EntriesOf(m, t)
           && exists j :: 0 <= j < |scanned| && ObjectView(scanned[j].pkg).name == Some(n))
      && (forall i :: 0 <= i < |deps| ==>
           var j := LastIndex(Keyed(scanned), Some(deps[i].name));
           && 0 <= j < |scanned| && ObjectView(scanned[j].pkg).name == Some(deps[i].name)
           && deps[i].resolved == ObjectView(scanned[j].pkg).version)
  {
    var known := Fold(map[], NamedPairs(scanned));
    KnownVersions(scanned);
    var ks := Keyed(scanned);
    forall n ensures n in known <==> exists j :: 0 <= j < |scanned| && ObjectView(scanned[j].pkg).name == Some(n) {
      if exists j :: 0 <= j < |scanned| && ObjectView(scanned[j].pkg).name == Some(n) {
        var j :| 0 <= j < |scanned| && ObjectView(scanned[j].pkg).name == Some(n);
        assert ks[j].0 == Some(n);
      }
    }
  }

  /** `deps` are the helper's records for the target `v`: a record for an
      examined section's `workspace:*` entry iff some scanned manifest has
      its name, resolved to the version of the last scanned manifest with
      that name. */
  ghost predicate HelperRecords(deps: seq<UtilsDep>, v: Json, scanned: seq<ScannedPackage>, replaceDevDeps: bool) {
    && (forall t, n :: Listed(deps, t, n) <==>
         && Examined(t, replaceDevDeps) && DepEntry(n, Placeholder) in EntriesOf(ObjectView(v), t)
         && exists j :: 0 <= j < |scanned| && ObjectView(scanned[j].pkg).name == Some(n))
    && (forall i :: 0 <= i < |deps| ==>
         var j := LastIndex(Keyed(scanned), Some(deps[i].name));
         && 0 <= j < |scanned| && ObjectView(scanned[j].pkg).name == Some(deps[i].name)
         && deps[i].resolved == ObjectView(scanned[j].pkg).version)
  }

  /** The helper's records for a parsed, non-null target `v`: none unless
      `v` is an object, and otherwise as `UtilsPicks` states. */
  lemma UtilsRecords(v: Json, scanned: seq<ScannedPackage>, replaceDevDeps: bool)
    ensures var deps := Resolve(ObjectView(v), replaceDevDeps, Fold(map[], NamedPairs(scanned)));
      && (!v.Object? ==> deps == [])
      && HelperRecords(deps, v, scanned, replaceDevDeps)
  {
    UtilsPicks(ObjectView(v), scanned, replaceDevDeps);
    if !v.Object? {
      NoSectionsNoRecords(ObjectView(v), replaceDevDeps, Fold(map[], NamedPairs(scanned)));
    }
  }

  /** `findWorkspaceDependencies` of the helper module: the target must be
      readable (`EREADPKG` otherwise); building the version map reads
      `pkg.name` of every scanned manifest, and the section loop reads
      `packageJson.dependencies`, each of which throws on `null`; each record
      is resolved to the version of the last scanned manifest with its
      name. */
  function FindWorkspaceDependencies(target: Option<Json>, scanned: seq<ScannedPackage>, replaceDevDeps: bool): (r: Result<(seq<UtilsDep>, Json)>)
    ensures r.Err? <==> target.None? || target == Some(Null) || HasNull(scanned)
    ensures target.None? ==> r == Err(ReadPackage)
    ensures target.Some? && r.Err? ==> r.error == NullProperty
    ensures r.Ok? ==> r.value.1 == target.value
    ensures r.Ok? && !target.value.Object? ==> r.value.0 == []
    ensures r.Ok? ==> HelperRecords(r.value.0, target.value, scanned, replaceDevDeps)
  {
    match target
    case None => Err(ReadPackage)
    case Some(v) =>
      if HasNull(scanned) || v.Null? then Err(NullProperty)
      else
        UtilsRecords(v, scanned, replaceDevDeps);
        Ok((Resolve(ObjectView(v), replaceDevDeps, Fold(map[], NamedPairs(scanned))), v))
  }

  /** `findWorkspaceDependencies` of the older plugin: a target that is
      unreadable, or that holds `null` (reading `packageJson.name` throws),
      fails with `EANALYSIS`; each record carries the scanned info (version
      and manifest path) of its name. */
  function FindWorkspaceDependenciesInPlugin(target: Option<Json>, packages: map<string, PkgInfo>, replaceDevDeps: bool): (r: Result<(seq<WorkspaceDep<PkgInfo>>, Json)>)
    ensures r.Err? <==> target.None? || target == Some(Null)
    ensures r.Err? ==> r.error == Analysis
    ensures r.Ok? ==> r.value.1 == target.value
    ensures r.Ok? && !target.value.Object? ==> r.value.0 == []
    ensures r.Ok? ==> forall t, n :: Listed(r.value.0, t, n) <==>
      Examined(t, replaceDevDeps) && DepEntry(n, Placeholder) in EntriesOf(ObjectView(target.value), t) && n in packages
    ensures r.Ok? ==> forall i :: 0 <= i < |r.value.0| ==>
      r.value.0[i].name in packages && r.value.0[i].resolved == packages[r.value.0[i].name]
  {
    match target
    case None => Err(Analysis)
    case Some(v) =>
      if v.Null? then Err(Analysis)
      else
        var deps := Resolve(ObjectView(v), replaceDevDeps, packages);
        assert !v.Object? ==> deps == [] by {
          if !v.Object? {
            NoSectionsNoRecords(ObjectView(v), replaceDevDeps, packages);
          }
        }
        Ok((deps, v))
  }
}

=== FILE: results.dfy ===
/** Option and Result types for the plugin's optional values and thrown errors. */
module Results {

  /** A value that may be absent: a missing JSON field, an unset state slot. */
  datatype Option<+T> = None | Some(value: T)

  /** The errors the plugin raises; each names the error code (or plain
      `Error`) that the JavaScript code throws. */
  datatype ErrorCode =
    | WorkspaceNotFound  // EWORKSPACE, or the plain Error of the older plugin
    | ReadPackage        // EREADPKG: a target package.json that does not parse
    | WritePackage       // EWRITEPKG: writing a package.json failed
    | ScanWorkspace      // ESCANWS: the breadth-first scan aborted
    | ReadDirectory      // readdirSync on something that is not a directory
    | Analysis           // EANALYSIS: the older plugin's target read failed
    | Verify             // EVERIFY: any failure inside verifyConditions
    | Update             // EUPDATE: the write in prepare failed
    | NullProperty       // the TypeError of reading a property of `null`

  /** The outcome of an operation that may throw. */
  datatype Result<+T> = Ok(value: T) | Err(error: ErrorCode)
}

=== FILE: rewrite.dfy ===
/** The three manifest rewriters: the forward rewrite of listed workspace
    dependencies (to `^version` or to the bare release version) and the
    revert of scoped, digit-leading values to the placeholder. */
module Rewrite {
  import opened Results
  import opened Strings
  import opened Manifests

  /** Entry `k` of section `t` exists in `m`. */
  predicate IsEntry(m: Manifest, t: DepType, k: int) {
    t in m.sections && 0 <= k < |m.sections[t]|
  }

  /** The entry is designated by some record of `deps` and holds a truthy
      value: exactly the entries the forward loop overwrites. */
  predicate Targeted<V>(m: Manifest, deps: seq<WorkspaceDep<V>>, t: DepType, k: int)
    requires IsEntry(m, t, k)
  {
    Listed(deps, t, m.sections[t][k].name) && m.sections[t][k].value != ""
  }

  /** One iteration of the forward loop, for the record `d`. */
  function Step<V>(m: Manifest, d: WorkspaceDep<V>, value: string): (r: (Manifest, bool))
    ensures SameShape(m, r.0)
  {
    if d.section in m.sections && Truthy(Lookup(m.sections[d.section], d.name)) then
      (m.(sections := m.sections[d.section := SetValue(m.sections[d.section], d.name, value)]), true)
    else
      (m, false)
  }

  /** The loop over `workspaceDeps` shared by `updateToVersionRanges` and
      `prepare`, returning the rewritten manifest and the `changes` flag. */
  function SetListed<V>(m: Manifest, deps: seq<WorkspaceDep<V>>, value: string): (r: (Manifest, bool))
    ensures SameShape(m, r.0)
    decreases |deps|
  {
    if deps == [] then (m, false)
    else
      var first := Step(m, deps[0], value);
      var rest := SetListed(first.0, deps[1..], value);
      (rest.0, first.1 || rest.1)
  }

  /** What one iteration does to each entry, and when it reports a change. */
  lemma StepEffect<V>(m: Manifest, d: WorkspaceDep<V>, value: string)
    ensures forall t, k :: IsEntry(m, t, k) ==>
      Step(m, d, value).0.sections[t][k].value ==
        if t == d.section && m.sections[t][k].name == d.name && m.sections[t][k].value != "" then value
        else m.sections[t][k].value
    ensures Step(m, d, value).1 <==>
      exists k :: IsEntry(m, d.section, k) && m.sections[d.section][k].name == d.name && m.sections[d.section][k].value != ""
  {
    if d.section in m.sections {
      var s := m.sections[d.section];
      if Truthy(Lookup(s, d.name)) {
        var k :| 0 <= k < |s| && s[k].name == d.name;
        assert IsEntry(m, d.section, k);
      }
    }
  }

  /** The forward rewrite sets exactly the targeted entries to `value` and
      keeps the value of every other entry. */
  lemma {:induction false} SetListedValues<V>(m: Manifest, deps: seq<WorkspaceDep<V>>, value: string)
    ensures forall t, k :: IsEntry(m, t, k) ==>
      SetListed(m, deps, value).0.sections[t][k].value ==
        if Targeted(m, deps, t, k) then value else m.sections[t][k].value
    decreases |deps|
  {
    if deps != [] {
      var d, tail := deps[0], deps[1..];
      var m1 := Step(m, d, value).0;
      StepEffect(m, d, value);
      SetListedValues(m1, tail, value);
      forall t, k | IsEntry(m, t, k)
        ensures SetListed(m, deps, value).0.sections[t][k].value ==
          if Targeted(m, deps, t, k) then value else m.sections[t][k].value
      {
        ListedCons(deps, t, m.sections[t][k].name);
        assert IsEntry(m1, t, k);
        assert m1.sections[t][k].name == m.sections[t][k].name;
      }
    }
  }

  /** The forward rewrite reports a change iff some entry was targeted. */
  lemma {:induction false} SetListedFlag<V>(m: Manifest, deps: seq<WorkspaceDep<V>>, value: string)
    ensures SetListed(m, deps, value).1 <==> exists t, k :: IsEntry(m, t, k) && Targeted(m, deps, t, k)
    decreases |deps|
  {
    if deps != [] {
      var d, tail := deps[0], deps[1..];
      var m1 := Step(m, d, value).0;
      StepEffect(m, d, value);
      SetListedFlag(m1, tail, value);
      if SetListed(m, deps, value).1 {
        if Step(m, d, value).1 {
          var k :| IsEntry(m, d.section, k) && m.sections[d.section][k].name == d.name && m.sections[d.section][k].value != "";
          ListedCons(deps, d.section, d.name);
          assert Targeted(m, deps, d.section, k);
        } else {
          var t, k :| IsEntry(m1, t, k) && Targeted(m1, tail, t, k);
          ListedCons(deps, t, m.sections[t][k].name);
          assert Targeted(m, deps, t, k);
        }
      }
      if exists t, k :: IsEntry(m, t, k) && Targeted(m, deps, t, k) {
        var t, k :| IsEntry(m, t, k) && Targeted(m, deps, t, k);
        ListedCons(deps, t, m.sections[t][k].name);
        if !Step(m, d, value).1 {
          assert IsEntry(m1, t, k) && Targeted(m1, tail, t, k);
        }
      }
    }
  }

  /** `updateToVersionRanges`: the forward rewrite to the caret range `^version`. */
  function UpdateToVersionRanges<V>(m: Manifest, deps: seq<WorkspaceDep<V>>, version: string): (r: (Manifest, bool))
    ensures SameShape(m, r.0)
    ensures forall t, k :: IsEntry(m, t, k) ==>
      r.0.sections[t][k].value == if Targeted(m, deps, t, k) then "^" + version else m.sections[t][k].value
    ensures r.1 <==> exists t, k :: IsEntry(m, t, k) && Targeted(m, deps, t, k)
  {
    SetListedValues(m, deps, "^" + version);
    SetListedFlag(m, deps, "^" + version);
    SetListed(m, deps, "^" + version)
  }

  /** The organisation scope whose packages are reverted. */
  const Scope := "@geniux/"

  /** The revert condition: a digit-leading value under a scoped name. */
  predicate Revertible(e: DepEntry) {
    StartsWithDigit(e.value) && StartsWith(e.name, Scope)
  }

  /** The inner loop of `revertToWorkspaceVersions`: walks a snapshot
      `entries` of the section (what `Object.entries` returned) and writes the
      placeholder under the name of every revertible entry. */
  function RevertEntries(s: Section, entries: seq<DepEntry>): (r: (Section, bool))
    ensures |r.0| == |s|
    ensures forall k :: 0 <= k < |s| ==> r.0[k].name == s[k].name
    decreases |entries|
  {
    if entries == [] then (s, false)
    else
      var e := entries[0];
      var first := if Revertible(e) then (SetValue(s, e.name, Placeholder), true) else (s, false);
      var rest := RevertEntries(first.0, entries[1..]);
      (rest.0, first.1 || rest.1)
  }

  /** Some snapshot entry carries the name `n`. */
  predicate InSnapshot(entries: seq<DepEntry>, n: string) {
    exists j :: 0 <= j < |entries| && entries[j].name == n
  }

  /** A snapshot whose entries are distinct and still agree with the section. */
  predicate Agrees(s: Section, entries: seq<DepEntry>) {
    && DistinctNames(entries)
    && forall j :: 0 <= j < |entries| ==> Lookup(s, entries[j].name) == Some(entries[j].value)
  }

  /** The loop body leaves the rest of the snapshot agreeing with the section. */
  lemma AgreesTail(s: Section, entries: seq<DepEntry>)
    requires entries != [] && Agrees(s, entries)
    ensures Agrees(if Revertible(entries[0]) then SetValue(s, entries[0].name, Placeholder) else s, entries[1..])
  {
    var s1 := if Revertible(entries[0]) then SetValue(s, entries[0].name, Placeholder) else s;
    forall j | 0 <= j < |entries[1..]|
      ensures Lookup(s1, entries[1..][j].name) == Some(entries[1..][j].value)
    {
      assert entries[1..][j] == entries[j + 1];
    }
  }

  lemma InSnapshotCons(entries: seq<DepEntry>, n: string)
    requires entries != []
    ensures InSnapshot(entries, n) <==> entries[0].name == n || InSnapshot(entries[1..], n)
  {
    if InSnapshot(entries, n) {
      var j :| 0 <= j < |entries| && entries[j].name == n;
      if j > 0 {
        assert entries[1..][j - 1] == entries[j];
      }
    }
    if InSnapshot(entries[1..], n) {
      var j :| 0 <= j < |entries[1..]| && entries[1..][j].name == n;
      assert entries[j + 1] == entries[1..][j];
    }
  }

  /** One entry across one loop iteration: the value the rest of the loop
      starts from, and whether the rest of the snapshot still names it. */
  lemma RevertEntriesStep(s: Section, entries: seq<DepEntry>, k: int)
    requires entries != [] && Agrees(s, entries) && 0 <= k < |s|
    ensures var s1 := if Revertible(entries[0]) then SetValue(s, entries[0].name, Placeholder) else s;
      (if InSnapshot(entries[1..], s1[k].name) && Revertible(s1[k]) then Placeholder else s1[k].value)
      == (if InSnapshot(entries, s[k].name) && Revertible(s[k]) then Placeholder else s[k].value)
  {
    var e, tail := entries[0], entries[1..];
    InSnapshotCons(entries, s[k].name);
    if s[k].name == e.name {
      forall j | 0 <= j < |tail|
        ensures tail[j].name != e.name
      {
        assert entries[j + 1] == tail[j];
      }
      assert Lookup(s, e.name) == Some(e.value);
    }
  }

  /** With an agreeing snapshot, the loop reverts exactly the revertible
      entries the snapshot names and keeps every other value. */
  lemma {:induction false} RevertEntriesValues(s: Section, entries: seq<DepEntry>)
    requires Agrees(s, entries)
    ensures forall k :: 0 <= k < |s| ==>
      RevertEntries(s, entries).0[k].value ==
        if InSnapshot(entries, s[k].name) && Revertible(s[k]) then Placeholder else s[k].value
    decreases |entries|
  {
    if entries != [] {
      var e, tail := entries[0], entries[1..];
      var s1 := if Revertible(e) then SetValue(s, e.name, Placeholder) else s;
      AgreesTail(s, entries);
      RevertEntriesValues(s1, tail);
      forall k | 0 <= k < |s|
        ensures RevertEntries(s, entries).0[k].value ==
          if InSnapshot(entries, s[k].name) && Revertible(s[k]) then Placeholder else s[k].value
      {
        RevertEntriesStep(s, entries, k);
      }
    }
  }

  /** The loop's flag is set iff some snapshot entry is revertible. */
  lemma {:induction false} RevertEntriesFlag(s: Section, entries: seq<DepEntry>)
    ensures RevertEntries(s, entries).1 <==> exists j :: 0 <= j < |entries| && Revertible(entries[j])
    decreases |entries|
  {
    if entries != [] {
      var e, tail := entries[0], entries[1..];
      var s1 := if Revertible(e) then SetValue(s, e.name, Placeholder) else s;
      RevertEntriesFlag(s1, tail);
      if exists j :: 0 <= j < |entries| && Revertible(entries[j]) {
        var j :| 0 <= j < |entries| && Revertible(entries[j]);
        if j > 0 {
          assert tail[j - 1] == entries[j];
        }
      }
      if exists j :: 0 <= j < |tail| && Revertible(tail[j]) {
        var j :| 0 <= j < |tail| && Revertible(tail[j]);
        assert entries[j + 1] == tail[j];
      }
    }
  }

  /** One section reverted, with its own entries as the snapshot. */
  function RevertSection(s: Section): (r: (Section, bool))
    ensures |r.0| == |s|
    ensures forall k :: 0 <= k < |s| ==> r.0[k].name == s[k].name
    ensures forall k :: 0 <= k < |s| ==> r.0[k].value == if Revertible(s[k]) then Placeholder else s[k].value
    ensures r.1 <==> exists k :: 0 <= k < |s| && Revertible(s[k])
  {
    forall k | 0 <= k < |s|
      ensures InSnapshot(s, s[k].name)
    {
    }
    RevertEntriesValues(s, s);
    RevertEntriesFlag(s, s);
    RevertEntries(s, s)
  }

  /** One iteration of the outer loop: section `t` reverted, if present. */
  function RevertOne(m: Manifest, t: DepType): (r: (Manifest, bool))
    ensures SameShape(m, r.0)
    ensures forall u, k :: IsEntry(m, u, k) ==>
      r.0.sections[u][k].value ==
        if u == t && Revertible(m.sections[u][k]) then Placeholder else m.sections[u][k].value
    ensures r.1 <==> exists k :: IsEntry(m, t, k) && Revertible(m.sections[t][k])
  {
    if t in m.sections then
      var rs := RevertSection(m.sections[t]);
      (m.(sections := m.sections[t := rs.0]), rs.1)
    else (m, false)
  }

  /** The outer loop of `revertToWorkspaceVersions` over section names;
      a section the manifest lacks is skipped. */
  function RevertIn(m: Manifest, types: seq<DepType>): (r: (Manifest, bool))
    ensures SameShape(m, r.0)
    decreases |types|
  {
    if types == [] then (m, false)
    else
      var first := RevertOne(m, types[0]);
      var rest := RevertIn(first.0, types[1..]);
      (rest.0, first.1 || rest.1)
  }

  /** No section name is visited twice. */
  predicate DistinctTypes(types: seq<DepType>) {
    forall i, j :: 0 <= i < j < |types| ==> types[i] != types[j]
  }

  lemma DistinctTypesTail(types: seq<DepType>)
    requires types != [] && DistinctTypes(types)
    ensures types[0] !in types[1..] && DistinctTypes(types[1..])
  {
    var tail := types[1..];
    forall j | 0 <= j < |tail|
      ensures tail[j] != types[0]
    {
      assert tail[j] == types[j + 1];
    }
    forall i, j | 0 <= i < j < |tail|
      ensures tail[i] != tail[j]
    {
      assert tail[i] == types[i + 1] && tail[j] == types[j + 1];
    }
  }

  /** Over distinct section names, the outer loop reverts exactly the
      revertible entries of the visited sections. */
  lemma {:induction false} RevertInValues(m: Manifest, types: seq<DepType>)
    requires DistinctTypes(types)
    ensures forall t, k :: IsEntry(m, t, k) ==>
      RevertIn(m, types).0.sections[t][k].value ==
        if t in types && Revertible(m.sections[t][k]) then Placeholder else m.sections[t][k].value
    decreases |types|
  {
    if types != [] {
      var m1 := RevertOne(m, types[0]).0;
      DistinctTypesTail(types);
      RevertInValues(m1, types[1..]);
      forall t, k | IsEntry(m, t, k)
        ensures RevertIn(m, types).0.sections[t][k].value ==
          if t in types && Revertible(m.sections[t][k]) then Placeholder else m.sections[t][k].value
      {
        assert IsEntry(m1, t, k);
        assert t in types <==> t == types[0] || t in types[1..];
      }
    }
  }

  /** Some entry of a section among `types` is revertible. */
  ghost predicate AnyRevertible(m: Manifest, types: seq<DepType>) {
    exists t, k :: IsEntry(m, t, k) && t in types && Revertible(m.sections[t][k])
  }

  /** Over distinct section names, the outer loop reports a change iff some
      visited section holds a revertible entry. */
  lemma {:induction false} RevertInFlag(m: Manifest, types: seq<DepType>)
    requires DistinctTypes(types)
    ensures RevertIn(m, types).1 <==> AnyRevertible(m, types)
    decreases |types|
  {
    if types != [] {
      var t0, tail := types[0], types[1..];
      var m1 := RevertOne(m, t0).0;
      DistinctTypesTail(types);
      RevertInFlag(m1, tail);
      if AnyRevertible(m, types) {
        var t, k :| IsEntry(m, t, k) && t in types && Revertible(m.sections[t][k]);
        if t != t0 {
          assert IsEntry(m1, t, k) && t in tail && Revertible(m1.sections[t][k]);
        }
      }
      if AnyRevertible(m1, tail) {
        var t, k :| IsEntry(m1, t, k) && t in tail && Revertible(m1.sections[t][k]);
        assert IsEntry(m, t, k) && t in types && Revertible(m.sections[t][k]);
      }
    }
  }

  /** The sections `revertToWorkspaceVersions` visits: all three. */
  const RevertedSections := [Dependencies, DevDependencies, PeerDependencies]

  lemma EverySectionReverted(t: DepType)
    ensures t in RevertedSections
  {
    assert RevertedSections[0] == Dependencies;
    assert RevertedSections[1] == DevDependencies;
    assert RevertedSections[2] == PeerDependencies;
  }

  /** `revertToWorkspaceVersions`: every revertible entry of every section
      becomes the placeholder, every other entry and field is kept, and the
      flag says whether anything was reverted. */
  function RevertToWorkspaceVersions(m: Manifest): (r: (Manifest, bool))
    ensures SameShape(m, r.0)
    ensures forall t, k :: IsEntry(m, t, k) ==>
      r.0.sections[t][k].value == if Revertible(m.sections[t][k]) then Placeholder else m.sections[t][k].value
    ensures r.1 <==> exists t, k :: IsEntry(m, t, k) && Revertible(m.sections[t][k])
  {
    RevertInValues(m, RevertedSections);
    RevertInFlag(m, RevertedSections);
    forall t | true
      ensures t in RevertedSections
    {
      EverySectionReverted(t);
    }
    RevertIn(m, RevertedSections)
  }
}

=== FILE: rewrite_laws.dfy ===
/** How the rewriters compose: idempotence, the forward/revert non-round-trip
    of the caret rewrite, and the round trip of the bare-version rewrite. */
module RewriteLaws {
  import opened Results
  import opened Strings
  import opened Manifests
  import opened Rewrite

  /** The placeholder is not a value the revert recognises. */
  lemma PlaceholderNotRevertible(name: string)
    ensures !Revertible(DepEntry(name, Placeholder))
  {
    assert Placeholder[0] == 'w';
  }

  /** A reverted entry is no longer revertible and survives a second revert. */
  lemma RevertTwiceEntry(m: Manifest, t: DepType, k: int)
    requires IsEntry(m, t, k)
    ensures var once := RevertToWorkspaceVersions(m).0;
      && IsEntry(once, t, k)
      && !Revertible(once.sections[t][k])
      && RevertToWorkspaceVersions(once).0.sections[t][k].value == once.sections[t][k].value
  {
    var once := RevertToWorkspaceVersions(m).0;
    var e := m.sections[t][k];
    assert IsEntry(once, t, k);
    var v := once.sections[t][k];
    if Revertible(e) {
      assert v == DepEntry(e.name, Placeholder);
      PlaceholderNotRevertible(e.name);
    } else {
      assert v == e;
    }
    assert IsEntry(RevertToWorkspaceVersions(once).0, t, k);
  }

  /** A second revert changes nothing and reports no change, because every
      value the first one wrote starts with 'w', not a digit. */
  lemma RevertIdempotent(m: Manifest)
    ensures var once := RevertToWorkspaceVersions(m).0;
      RevertToWorkspaceVersions(once) == (once, false)
  {
    var once := RevertToWorkspaceVersions(m).0;
    var twice := RevertToWorkspaceVersions(once);
    forall t, k | IsEntry(once, t, k)
      ensures !Revertible(once.sections[t][k])
      ensures twice.0.sections[t][k].value == once.sections[t][k].value
    {
      RevertTwiceEntry(m, t, k);
    }
    ShapeExtensionality(once, twice.0);
  }

  /** Forward-rewriting twice with the same records and value gives the same
      manifest as once. */
  lemma ForwardIdempotent<V>(m: Manifest, deps: seq<WorkspaceDep<V>>, value: string)
    ensures var once := SetListed(m, deps, value).0;
      SetListed(once, deps, value).0 == once
  {
    var once := SetListed(m, deps, value).0;
    var twice := SetListed(once, deps, value).0;
    SetListedValues(m, deps, value);
    SetListedValues(once, deps, value);
    forall t, k | IsEntry(once, t, k)
      ensures twice.sections[t][k].value == once.sections[t][k].value
    {
      assert IsEntry(m, t, k);
    }
    ShapeExtensionality(once, twice);
  }

  /** A caret range written by `updateToVersionRanges` survives the revert:
      '^' is not a digit, so forward-then-revert does not restore the
      placeholder. */
  lemma ForwardThenRevertKeepsRange<V>(m: Manifest, deps: seq<WorkspaceDep<V>>, version: string, t: DepType, k: int)
    requires IsEntry(m, t, k) && Targeted(m, deps, t, k)
    ensures var back := RevertToWorkspaceVersions(UpdateToVersionRanges(m, deps, version).0).0;
      back.sections[t][k].value == "^" + version && back.sections[t][k].value != Placeholder
  {
    var fwd := UpdateToVersionRanges(m, deps, version).0;
    assert IsEntry(fwd, t, k);
    assert fwd.sections[t][k].value == "^" + version;
    assert !StartsWithDigit(fwd.sections[t][k].value);
    assert Placeholder[0] == 'w';
  }

  /** A concrete manifest on which forward-then-revert is not the identity. */
  lemma ForwardThenRevertNotIdentity()
    ensures var m := Manifest(None, None, map[Dependencies := [DepEntry("@geniux/core", Placeholder)]]);
      var deps := [WorkspaceDep("@geniux/core", Dependencies, Placeholder, Some("1.2.3"))];
      RevertToWorkspaceVersions(UpdateToVersionRanges(m, deps, "1.2.3").0).0 != m
  {
    var m := Manifest(None, None, map[Dependencies := [DepEntry("@geniux/core", Placeholder)]]);
    var deps := [WorkspaceDep("@geniux/core", Dependencies, Placeholder, Some("1.2.3"))];
    assert IsEntry(m, Dependencies, 0);
    assert deps[0].section == Dependencies && deps[0].name == "@geniux/core";
    assert Targeted(m, deps, Dependencies, 0);
    ForwardThenRevertKeepsRange(m, deps, "1.2.3", Dependencies, 0);
  }

  /** The manifest holds no revertible entry: it is in checked-in form. */
  ghost predicate InWorkspaceForm(m: Manifest) {
    forall t, k :: IsEntry(m, t, k) ==> !Revertible(m.sections[t][k])
  }

  /** One entry of the round trip: a rewritten entry held the placeholder
      and is reverted to it; any other entry is left alone twice. */
  lemma RestoresEntry<V>(m: Manifest, deps: seq<WorkspaceDep<V>>, version: string, t: DepType, k: int)
    requires StartsWithDigit(version)
    requires InWorkspaceForm(m)
    requires IsEntry(m, t, k)
    requires Targeted(m, deps, t, k) ==>
      StartsWith(m.sections[t][k].name, Scope) && m.sections[t][k].value == Placeholder
    ensures RevertToWorkspaceVersions(SetListed(m, deps, version).0).0.sections[t][k].value == m.sections[t][k].value
  {
    var fwd := SetListed(m, deps, version).0;
    SetListedValues(m, deps, version);
    assert IsEntry(fwd, t, k);
    assert fwd.sections[t][k].name == m.sections[t][k].name;
  }

  /** The older plugin's `prepare` writes the bare release version. When that
      version starts with a digit, every rewritten entry is scoped and held the
      placeholder, and the manifest was in checked-in form, the revert
      restores the manifest exactly. */
  lemma BareForwardThenRevertRestores<V>(m: Manifest, deps: seq<WorkspaceDep<V>>, version: string)
    requires StartsWithDigit(version)
    requires InWorkspaceForm(m)
    requires forall t, k :: IsEntry(m, t, k) && Targeted(m, deps, t, k) ==>
      StartsWith(m.sections[t][k].name, Scope) && m.sections[t][k].value == Placeholder
    ensures RevertToWorkspaceVersions(SetListed(m, deps, version).0).0 == m
  {
    var back := RevertToWorkspaceVersions(SetListed(m, deps, version).0).0;
    forall t, k | IsEntry(m, t, k)
      ensures back.sections[t][k].value == m.sections[t][k].value
    {
      RestoresEntry(m, deps, version, t, k);
    }
    ShapeExtensionality(m, back);
  }
}

=== FILE: strings.dfy ===
/** The few string tests the plugin performs. */
module Strings {

  /** JavaScript `s.startsWith(prefix)`. */
  predicate StartsWith(s: string, prefix: string) {
    |prefix| <= |s| && s[..|prefix|] == prefix
  }

  /** The character class `\d` of a JavaScript regular expression without the
      `u` flag: the ASCII digits only. */
  predicate IsDigit(c: char) {
    '0' <= c <= '9'
  }

  /** `/^\d/.test(s)`. */
  predicate StartsWithDigit(s: string) {
    |s| > 0 && IsDigit(s[0])
  }
}

=== FILE: tree_scan.dfy ===
/** The recursive package scanner of the older plugin: it walks
    `<root>/packages`, records named manifests of subdirectories by name
    (a later one overwrites an earlier one), and skips unreadable ones. */
module TreeScan {
  import opened Results
  import opened Strings
  import opened Paths
  import opened Manifests
  import opened FileTree
  import opened LastWins

  /** What the scan keeps per package name. */
  datatype PkgInfo = PkgInfo(version: string, path: Path)

  /** The version recorded for a manifest without a truthy `version`. */
  const UnknownVersion := "unknown"

  /** `path.join(workspaceRoot, 'packages')`. */
  function PackagesDir(root: Path): Path {
    root + ["packages"]
  }

  /** The guard `fullPath.startsWith(path.join(workspaceRoot, 'packages'))`,
      a test on the path strings. */
  predicate InPackages(root: Path, p: Path) {
    StartsWith(Render(p), Render(PackagesDir(root)))
  }

  /** `pkg.version || 'unknown'`. */
  function VersionOrUnknown(v: Option<string>): (r: string)
    ensures r != ""
    ensures Truthy(v) ==> r == v.value
    ensures !Truthy(v) ==> r == UnknownVersion
  {
    if Truthy(v) then v.value else UnknownVersion
  }

  /** The file at `q` below `n` is a manifest the scan records: it parses
      to an object with a truthy name. */
  predicate NamedAt(n: Node, q: Path) {
    ObjectAt(n, q).Some? && Truthy(ObjectAt(n, q).value.name)
  }

  /** The pair the scan records for the named manifest at `q` below `n`,
      read from the path `p`: its name, and its version or `'unknown'`. */
  function PairAt(n: Node, q: Path, p: Path): (string, PkgInfo)
    requires NamedAt(n, q)
  {
    var m := ObjectAt(n, q).value;
    (m.name.value, PkgInfo(VersionOrUnknown(m.version), p))
  }

  /** The package.json of the directory `full`, as the scan reads it: a
      (name, info) pair when the file exists, parses to an object and has a
      truthy name; nothing when it is absent, a directory or unparsable (the
      read throws, the error is logged and the manifest skipped), when it is
      `null` (reading `pkg.name` throws, with the same outcome), or when it
      is another non-object or has no truthy name. */
  function ManifestIn(full: Path, children: seq<Entry>): (r: Option<(string, PkgInfo)>)
    ensures r.Some? <==> NamedAt(Dir(children), [ManifestName])
    ensures r.Some? ==> r.value == PairAt(Dir(children), [ManifestName], full + [ManifestName])
    ensures r.Some? ==> r.value.0 != "" && r.value.1.version != "" && r.value.1.path == full + [ManifestName]
  {
    NodeAtChild(children, ManifestName);
    match Child(children, ManifestName)
    case Some(File(Some(Object(m)))) =>
      if Truthy(m.name) then Some((m.name.value, PkgInfo(VersionOrUnknown(m.version), full + [ManifestName])))
      else None
    case _ => None
  }

  /** A key of the map after a scan of `dir` that started from `acc`:
      untouched, or set from a named manifest found below `dir`. */
  predicate KeptOrFound(acc: map<string, PkgInfo>, dir: Path, r: map<string, PkgInfo>, n: string)
    requires n in r
  {
    (n in acc && r[n] == acc[n]) || (n != "" && r[n].version != "" && VisibleManifestPath(dir, r[n].path))
  }

  /** `scanDirectory(dir)` with the shared `packages` map `acc`. */
  function ScanDirectory(root: Path, dir: Path, items: seq<Entry>, acc: map<string, PkgInfo>): (r: map<string, PkgInfo>)
    ensures acc.Keys <= r.Keys
    ensures forall n :: n in r ==> KeptOrFound(acc, dir, r, n)
    decreases EntriesSize(items), 1
  {
    if items == [] then acc
    else
      assert EntriesSize(items) == NodeSize(items[0].node) + EntriesSize(items[1..]);
      ScanDirectory(root, dir, items[1..], ScanItem(root, dir, items[0], acc))
  }

  /** One item of `scanDirectory`: unless skipped, a directory has its
      manifest recorded when inside the packages directory, and is then
      descended into under the same guard; files are ignored. */
  function ScanItem(root: Path, dir: Path, item: Entry, acc: map<string, PkgInfo>): (r: map<string, PkgInfo>)
    ensures acc.Keys <= r.Keys
    ensures forall n :: n in r ==> KeptOrFound(acc, dir, r, n)
    decreases NodeSize(item.node), 0
  {
    if Skipped(item.name) then acc
    else match item.node
      case File(_) => acc
      case Dir(children) =>
        var full := dir + [item.name];
        var withPkg :=
          match ManifestIn(full, children)
          case Some(c) => if InPackages(root, full) then acc[c.0 := c.1] else acc
          case None => acc;
        forall n | n in withPkg
          ensures KeptOrFound(acc, dir, withPkg, n)
        {
          if !(n in acc && withPkg[n] == acc[n]) {
            var path := withPkg[n].path;
            assert path == full + [ManifestName];
            assert VisibleManifestPath(full, path);
            VisibleWiden(dir, item.name, path);
          }
        }
        var r := if InPackages(root, full) then ScanDirectory(root, full, children, withPkg) else withPkg;
        forall n | n in r
          ensures KeptOrFound(acc, dir, r, n)
        {
          if !(n in withPkg && r[n] == withPkg[n]) {
            assert KeptOrFound(withPkg, full, r, n);
            VisibleWiden(dir, item.name, r[n].path);
          }
        }
        r
  }

  /** The manifest of one subdirectory, as a list of zero or one pairs. */
  function ManifestPairs(full: Path, children: seq<Entry>): seq<(string, PkgInfo)> {
    match ManifestIn(full, children)
    case Some(c) => [c]
    case None => []
  }

  /** The recorded pairs lie in visible package.json files below `dir`,
      inside a subdirectory of it. */
  predicate RecordedBelow(dir: Path, r: seq<(string, PkgInfo)>) {
    forall i :: 0 <= i < |r| ==>
      && r[i].0 != ""
      && r[i].1.version != ""
      && |r[i].1.path| >= |dir| + 2
      && VisibleManifestPath(dir, r[i].1.path)
  }

  /** Reference order: the recorded (name, info) pairs in the order a
      depth-first walk below `dir` meets them. */
  function Candidates(dir: Path, items: seq<Entry>): (r: seq<(string, PkgInfo)>)
    ensures RecordedBelow(dir, r)
    ensures forall p :: VisibleManifestPath(dir, p) && |p| >= |dir| + 2 && NamedAt(Dir(items), p[|dir|..]) ==>
      PairAt(Dir(items), p[|dir|..], p) in r
    decreases EntriesSize(items), 1
  {
    if items == [] then []
    else
      assert EntriesSize(items) == NodeSize(items[0].node) + EntriesSize(items[1..]);
      var here := ItemCandidates(dir, items[0]);
      var rest := Candidates(dir, items[1..]);
      forall p | VisibleManifestPath(dir, p) && |p| >= |dir| + 2 && NamedAt(Dir(items), p[|dir|..])
        ensures PairAt(Dir(items), p[|dir|..], p) in here + rest
      {
        NamedAtDir(items, dir, p);
      }
      here + rest
  }

  /** The reference pairs of one item: a directory that is not skipped
      contributes its own manifest, then everything below it. */
  function ItemCandidates(dir: Path, item: Entry): (r: seq<(string, PkgInfo)>)
    ensures RecordedBelow(dir, r)
    ensures forall p :: VisibleManifestPath(dir, p) && |p| >= |dir| + 2 && p[|dir|] == item.name && NamedAt(item.node, p[|dir| + 1..]) ==>
      PairAt(item.node, p[|dir| + 1..], p) in r
    decreases NodeSize(item.node), 0
  {
    if !Skipped(item.name) && item.node.Dir? then
      var full := dir + [item.name];
      var children := item.node.entries;
      var mp, cs := ManifestPairs(full, children), Candidates(full, children);
      var sub := mp + cs;
      forall i | 0 <= i < |sub|
        ensures sub[i].0 != "" && sub[i].1.version != "" && |sub[i].1.path| >= |dir| + 2
        ensures VisibleManifestPath(dir, sub[i].1.path)
      {
        if i < |mp| {
          assert sub[i] == mp[i] && mp[i].1.path == full + [ManifestName];
          assert VisibleManifestPath(full, sub[i].1.path);
        } else {
          assert sub[i] == cs[i - |mp|];
        }
        VisibleWiden(dir, item.name, sub[i].1.path);
      }
      forall p | VisibleManifestPath(dir, p) && |p| >= |dir| + 2 && p[|dir|] == item.name && NamedAt(item.node, p[|dir| + 1..])
        ensures PairAt(item.node, p[|dir| + 1..], p) in sub
      {
        NamedAtItem(dir, item, p);
        assert item.node == Dir(children);
        if |p| == |dir| + 2 {
          assert PairAt(item.node, p[|dir| + 1..], p) in mp;
        } else {
          assert PairAt(item.node, p[|dir| + 1..], p) in cs;
        }
      }
      sub
    else
      forall p | VisibleManifestPath(dir, p) && |p| >= |dir| + 2 && p[|dir|] == item.name
        ensures !NamedAt(item.node, p[|dir| + 1..])
      {
        if NamedAt(item.node, p[|dir| + 1..]) {
          NamedAtItem(dir, item, p);
        }
      }
      []
  }

  /** A named manifest below a listing lies below the listing's first entry
      when that entry carries the path's next name, and below the rest of
      the listing otherwise. */
  lemma NamedAtDir(items: seq<Entry>, dir: Path, p: Path)
    requires items != [] && |dir| < |p| && NamedAt(Dir(items), p[|dir|..])
    ensures items[0].name == p[|dir|] ==>
      && NamedAt(items[0].node, p[|dir| + 1..])
      && PairAt(Dir(items), p[|dir|..], p) == PairAt(items[0].node, p[|dir| + 1..], p)
    ensures items[0].name != p[|dir|] ==>
      && NamedAt(Dir(items[1..]), p[|dir|..])
      && PairAt(Dir(items), p[|dir|..], p) == PairAt(Dir(items[1..]), p[|dir|..], p)
  {
    var q := p[|dir|..];
    NodeAtDir(items, q);
    assert q[1..] == p[|dir| + 1..];
  }

  /** A named manifest at a visible path through an item lies in the item's
      own package.json, or visibly below it. */
  lemma NamedAtItem(dir: Path, item: Entry, p: Path)
    requires VisibleManifestPath(dir, p) && |p| >= |dir| + 2 && p[|dir|] == item.name
    requires NamedAt(item.node, p[|dir| + 1..])
    ensures !Skipped(item.name) && item.node.Dir?
    ensures var full := dir + [item.name];
      if |p| == |dir| + 2 then p == full + [ManifestName] && p[|dir| + 1..] == [ManifestName]
      else VisibleManifestPath(full, p) && |p| >= |full| + 2 && p[|full|..] == p[|dir| + 1..]
  {
    var full := dir + [item.name];
    assert p[|dir| + 1..] != [];
    assert p[..|full|] == full;
    if |p| == |dir| + 2 {
      assert p[|dir| + 1..] == [p[|p| - 1]];
    }
  }

  /** A named manifest below a listing's first entry is named below the
      listing, with the same pair. */
  lemma PairInFirst(items: seq<Entry>, dir: Path, p: Path)
    requires items != [] && |dir| + 2 <= |p| && p[|dir|] == items[0].name
    requires NamedAt(items[0].node, p[|dir| + 1..])
    ensures NamedAt(Dir(items), p[|dir|..])
    ensures PairAt(Dir(items), p[|dir|..], p) == PairAt(items[0].node, p[|dir| + 1..], p)
  {
    var q := p[|dir|..];
    NodeAtDir(items, q);
    assert q[1..] == p[|dir| + 1..];
    assert ObjectAt(Dir(items), q) == ObjectAt(items[0].node, q[1..]);
  }

  /** In a well-formed listing, a named manifest below the rest of it is
      named below the whole listing, with the same pair. */
  lemma PairInRest(items: seq<Entry>, dir: Path, p: Path)
    requires items != [] && WellFormed(Dir(items)) && |dir| + 2 <= |p|
    requires NamedAt(Dir(items[1..]), p[|dir|..])
    ensures NamedAt(Dir(items), p[|dir|..])
    ensures PairAt(Dir(items), p[|dir|..], p) == PairAt(Dir(items[1..]), p[|dir|..], p)
  {
    var q := p[|dir|..];
    WellFormedSplit(items);
    NodeAtDir(items, q);
    assert Child(items[1..], q[0]).Some?;
    assert ObjectAt(Dir(items), q) == ObjectAt(Dir(items[1..]), q);
  }

  /** The manifest of a subdirectory, or one below it, as seen from the
      subdirectory's parent. */
  lemma PairInItem(dir: Path, item: Entry, p: Path)
    requires item.node.Dir? && |dir| + 2 <= |p| && p[..|dir| + 1] == dir + [item.name]
    ensures p[|dir|] == item.name
    ensures p[|dir| + 1..] == p[|dir + [item.name]|..]
  {
    assert p[|dir|] == p[..|dir| + 1][|dir|];
  }

  /** In a well-formed tree, a pair the reference lists comes from the named
      manifest at its own path: the path lies at least two steps below
      `dir`, and the pair is that manifest's name and version. */
  lemma {:induction false} CandidateSoundAt(dir: Path, items: seq<Entry>, c: (string, PkgInfo))
    requires WellFormed(Dir(items)) && c in Candidates(dir, items)
    ensures |dir| + 2 <= |c.1.path|
    ensures NamedAt(Dir(items), c.1.path[|dir|..]) && c == PairAt(Dir(items), c.1.path[|dir|..], c.1.path)
    decreases EntriesSize(items), 1
  {
    assert EntriesSize(items) == NodeSize(items[0].node) + EntriesSize(items[1..]);
    WellFormedSplit(items);
    var here, rest := ItemCandidates(dir, items[0]), Candidates(dir, items[1..]);
    assert Candidates(dir, items) == here + rest;
    if c in here {
      ItemCandidateSoundAt(dir, items[0], c);
      PairInFirst(items, dir, c.1.path);
    } else {
      CandidateSoundAt(dir, items[1..], c);
      PairInRest(items, dir, c.1.path);
    }
  }

  lemma {:induction false} ItemCandidateSoundAt(dir: Path, item: Entry, c: (string, PkgInfo))
    requires WellFormed(item.node) && c in ItemCandidates(dir, item)
    ensures |dir| + 2 <= |c.1.path| && c.1.path[|dir|] == item.name
    ensures NamedAt(item.node, c.1.path[|dir| + 1..]) && c == PairAt(item.node, c.1.path[|dir| + 1..], c.1.path)
    decreases NodeSize(item.node), 0
  {
    var full := dir + [item.name];
    var children := item.node.entries;
    var mp, cs := ManifestPairs(full, children), Candidates(full, children);
    assert ItemCandidates(dir, item) == mp + cs;
    if c in mp {
      assert c == ManifestIn(full, children).value;
      assert c.1.path[|dir| + 1..] == [ManifestName];
    } else {
      CandidateSoundAt(full, children, c);
      var k :| 0 <= k < |cs| && cs[k] == c;
      assert c.1.path[..|full|] == full;
      PairInItem(dir, item, c.1.path);
    }
  }

  /** Every pair the reference lists, as above. */
  lemma CandidatesSound(dir: Path, items: seq<Entry>)
    requires WellFormed(Dir(items))
    ensures forall c :: c in Candidates(dir, items) ==>
      && |dir| + 2 <= |c.1.path|
      && NamedAt(Dir(items), c.1.path[|dir|..])
      && c == PairAt(Dir(items), c.1.path[|dir|..], c.1.path)
  {
    forall c | c in Candidates(dir, items)
      ensures |dir| + 2 <= |c.1.path|
      ensures NamedAt(Dir(items), c.1.path[|dir|..]) && c == PairAt(Dir(items), c.1.path[|dir|..], c.1.path)
    {
      CandidateSoundAt(dir, items, c);
    }
  }

  /** Inside the packages directory the string guard always passes, so the
      scan sets the reference pairs in depth-first order. */
  lemma {:induction false} ScanIsFold(root: Path, dir: Path, items: seq<Entry>, acc: map<string, PkgInfo>)
    requires PackagesDir(root) <= dir
    ensures ScanDirectory(root, dir, items, acc) == Fold(acc, Candidates(dir, items))
    decreases EntriesSize(items), 1
  {
    if items != [] {
      assert EntriesSize(items) == NodeSize(items[0].node) + EntriesSize(items[1..]);
      ScanItemIsFold(root, dir, items[0], acc);
      ScanIsFold(root, dir, items[1..], ScanItem(root, dir, items[0], acc));
      FoldAppend(acc, ItemCandidates(dir, items[0]), Candidates(dir, items[1..]));
    }
  }

  lemma {:induction false} ScanItemIsFold(root: Path, dir: Path, item: Entry, acc: map<string, PkgInfo>)
    requires PackagesDir(root) <= dir
    ensures ScanItem(root, dir, item, acc) == Fold(acc, ItemCandidates(dir, item))
    decreases NodeSize(item.node), 0
  {
    if !Skipped(item.name) && item.node.Dir? {
      var full := dir + [item.name];
      var children := item.node.entries;
      RenderPrefix(PackagesDir(root), full);
      var mp := ManifestPairs(full, children);
      if ManifestIn(full, children).Some? {
        assert mp[..0] == [];
      }
      ScanIsFold(root, full, children, Fold(acc, mp));
      FoldAppend(acc, mp, Candidates(full, children));
    }
  }

  /** `findWorkspacePackages` of the older plugin: no packages directory
      gives an empty map; a packages path that is not a directory makes
      `readdirSync` throw; otherwise each name maps to the info of the last
      manifest with that name in depth-first order. */
  function FindWorkspacePackages(fs: Node, root: Path): (r: Result<map<string, PkgInfo>>)
    ensures NodeAt(fs, PackagesDir(root)).None? ==> r == Ok(map[])
    ensures r.Err? <==> NodeAt(fs, PackagesDir(root)).Some? && NodeAt(fs, PackagesDir(root)).value.File?
    ensures r.Err? ==> r.error == ReadDirectory
    ensures NodeAt(fs, PackagesDir(root)).Some? && NodeAt(fs, PackagesDir(root)).value.Dir? ==>
      var cands := Candidates(PackagesDir(root), NodeAt(fs, PackagesDir(root)).value.entries);
      && r.Ok?
      && (forall n :: n in r.value <==> LastIndex(cands, n) >= 0)
      && (forall n :: n in r.value ==> r.value[n] == cands[LastIndex(cands, n)].1)
  {
    match NodeAt(fs, PackagesDir(root))
    case None => Ok(map[])
    case Some(File(_)) => Err(ReadDirectory)
    case Some(Dir(es)) =>
      ScanIsFold(root, PackagesDir(root), es, map[]);
      Ok(ScanDirectory(root, PackagesDir(root), es, map[]))
  }

  /** In a well-formed tree, a pair the reference lists below the directory
      at `pd` is read from the named manifest at its full path. */
  lemma CandidateByPath(fs: Node, pd: Path, c: (string, PkgInfo))
    requires WellFormed(fs) && NodeAt(fs, pd).Some? && NodeAt(fs, pd).value.Dir?
    requires c in Candidates(pd, NodeAt(fs, pd).value.entries)
    ensures VisibleManifestPath(pd, c.1.path) && |pd| + 2 <= |c.1.path|
    ensures ObjectAt(fs, c.1.path).Some? && ObjectAt(fs, c.1.path).value.name == Some(c.0)
    ensures c.1.version == VersionOrUnknown(ObjectAt(fs, c.1.path).value.version)
  {
    var es := NodeAt(fs, pd).value.entries;
    var cands := Candidates(pd, es);
    WellFormedAt(fs, pd);
    CandidateSoundAt(pd, es, c);
    var k :| 0 <= k < |cands| && cands[k] == c;
    NodeBelow(fs, pd, c.1.path);
    assert ObjectAt(fs, c.1.path) == ObjectAt(Dir(es), c.1.path[|pd|..]);
  }

  /** The named manifest behind one recorded name. */
  lemma RecordedByPath(fs: Node, root: Path, n: string)
    requires WellFormed(fs) && NodeAt(fs, PackagesDir(root)).Some? && NodeAt(fs, PackagesDir(root)).value.Dir?
    requires FindWorkspacePackages(fs, root).Ok? && n in FindWorkspacePackages(fs, root).value
    ensures var pd, info := PackagesDir(root), FindWorkspacePackages(fs, root).value[n];
      && VisibleManifestPath(pd, info.path) && |pd| + 2 <= |info.path|
      && ObjectAt(fs, info.path).Some? && ObjectAt(fs, info.path).value.name == Some(n)
      && info.version == VersionOrUnknown(ObjectAt(fs, info.path).value.version)
  {
    var pd := PackagesDir(root);
    var cands := Candidates(pd, NodeAt(fs, pd).value.entries);
    var c := cands[LastIndex(cands, n)];
    assert c in cands && c.0 == n && FindWorkspacePackages(fs, root).value[n] == c.1;
    CandidateByPath(fs, pd, c);
  }

  /** One named manifest below the packages directory has its name recorded. */
  lemma NamedIsRecorded(fs: Node, root: Path, p: Path)
    requires NodeAt(fs, PackagesDir(root)).Some? && NodeAt(fs, PackagesDir(root)).value.Dir?
    requires VisibleManifestPath(PackagesDir(root), p) && |PackagesDir(root)| + 2 <= |p| && NamedAt(fs, p)
    ensures FindWorkspacePackages(fs, root).Ok?
    ensures ObjectAt(fs, p).value.name.value in FindWorkspacePackages(fs, root).value
  {
    var pd := PackagesDir(root);
    var es := NodeAt(fs, pd).value.entries;
    var cands := Candidates(pd, es);
    NodeBelow(fs, pd, p);
    assert ObjectAt(fs, p) == ObjectAt(Dir(es), p[|pd|..]);
    var c := PairAt(Dir(es), p[|pd|..], p);
    var j :| 0 <= j < |cands| && cands[j] == c;
    assert LastIndex(cands, c.0) >= 0;
  }

  /** In a well-formed tree with a packages directory, the older scan reads
      each path on its own: every recorded name maps to a named manifest at
      the recorded path, at least two steps below the packages directory,
      that carries that name and gives the recorded version; and the name of
      every such manifest is recorded. */
  lemma ScanRecordsByPath(fs: Node, root: Path)
    requires WellFormed(fs) && NodeAt(fs, PackagesDir(root)).Some? && NodeAt(fs, PackagesDir(root)).value.Dir?
    ensures var r, pd := FindWorkspacePackages(fs, root), PackagesDir(root);
      && r.Ok?
      && (forall n :: n in r.value ==>
           var p := r.value[n].path;
           && VisibleManifestPath(pd, p) && |pd| + 2 <= |p|
           && ObjectAt(fs, p).Some? && ObjectAt(fs, p).value.name == Some(n)
           && r.value[n].version == VersionOrUnknown(ObjectAt(fs, p).value.version))
      && (forall p :: VisibleManifestPath(pd, p) && |pd| + 2 <= |p| && NamedAt(fs, p) ==>
           ObjectAt(fs, p).value.name.value in r.value)
  {
    forall n | n in FindWorkspacePackages(fs, root).value {
      RecordedByPath(fs, root, n);
    }
    forall p | VisibleManifestPath(PackagesDir(root), p) && |PackagesDir(root)| + 2 <= |p| && NamedAt(fs, p) {
      NamedIsRecorded(fs, root, p);
    }
  }
}
